=== FILE: README.md ===
# Content hub pages — a Dafny model

This project models the logic of three pages of a React content-sharing site.

- **Browse page** (`src/pages/BrowsePage.tsx`): a pure pipeline from the catalog and the facet state to what the page shows.
  - The catalog is filtered by four conjunctive facets:
    - a case-folded title search;
    - the selected categories;
    - every active tag;
    - an inclusive view-count range.
  - The result is stably sorted by one of four comparators.
  - It is cut into pages of nine.
  - Under the results sits a row of page links and ellipses.
  - The category and tag checkboxes toggle membership in their facet lists.
  - `handlePageChange` accepts a page only in `1..totalPages`.
- **Submission wizard** (`src/components/SubmissionWizardForm.tsx`): a step counter over steps 1..4.
  - "Next" is gated by the current step's schema.
  - "Previous" goes one step back.
  - A submit that passes the current step's resolver schema and is accepted moves to the success step 4. Pressing Enter on steps 1 and 2 submits too, with only the schemas up to that step checked.
  - "Submit Another" returns to step 1.
  - Which buttons a step draws decides which actions are available.
- **Content detail page** (`src/pages/ContentDetailPage.tsx`):
  - the state the page initialises from the route id, with a not-found state;
  - the like toggle;
  - posting a trimmed, non-empty comment with id `c<n+1>`;
  - the breadcrumb title, cut to 30 characters.

Modules:

| module | file | what it holds |
|---|---|---|
| `Seqs` | `seqs.dfy` | An order-preserving `Filter` (`Array.prototype.filter`) and the subsequence relation. |
| `Text` | `text.dfy` | `toLowerCase`, `includes`, `trim`, and the decimal rendering of a number. |
| `Catalog` | `catalog.dfy` | The item record of the catalog. |
| `BrowseFilter` | `browse_filter.dfy` | The four facet predicates and the filter chain. |
| `BrowseSort` | `browse_sort.dfy` | The four comparators, the stable sort, and its uniqueness. |
| `BrowsePaging` | `browse_paging.dfy` | Page count, page slice, and the link row. |
| `Browse` | `browse.dfy` | The facet state, the toggles, the render-time recompute, and the page events. |
| `Wizard` | `wizard.dfy` | The submission wizard. |
| `Detail` | `detail.dfy` | The detail page. |

`currentPage` is never clamped when a facet change shrinks the results; only `handlePageChange` checks the range.

- A stale page number slices to an empty page, and the "No content found" branch renders (`Browse.StalePageShowsNothing`).
- When the results then fit on one page, no pager is drawn, so the page stays empty until a facet changes (`Browse.StaleSinglePageIsStuck`).

Three more behaviours of the code are stated as lemmas.

- **Duplicate comment ids** (`Detail.DuplicateIdFromUnnumberedList`). The id of a new comment is derived from the length of the list, not from the ids already present. The sample entry whose only comment is `c3` therefore receives `c2` and then a second `c3`.
- **Early submit** (`Wizard.EarlySubmitSkipsLaterSteps`). Steps 1 and 2 have no submit button but a single text or URL input, so Enter submits the form. The resolver then checks only the schemas up to that step, and a form with no description and no category reaches the success screen.
- **Unguarded step decrement** (`Wizard.HandlePrev`). `handlePrevStep` decrements the step without a guard. Only the button visibility keeps the step at 1 or above (`Wizard.Press`, `Wizard.PressKeepsStepInRange`).

## Model

| member | source | states |
|---|---|---|
| `Browse.Toggle` | src/pages/BrowsePage.tsx:46-56 | Toggling flips the membership of the toggled value and leaves the membership of every other value unchanged. |
| `Browse.ToggleTwice` | src/pages/BrowsePage.tsx:46-56 | Toggling the same value twice restores the membership of every value. |
| `Browse.ToggleTwiceFromAbsent` | src/pages/BrowsePage.tsx:46-56 | When the value was absent, toggling it on and then off gives back the identical list. |
| `Browse.ToggleKeepsDistinct` | src/pages/BrowsePage.tsx:46-56 | A facet list without repeats never gains one from a toggle. |
| `BrowseFilter.FilterItems` | src/pages/BrowsePage.tsx:58-62 | The filter stage is sound and complete. Its output is an order-preserving subsequence of the catalog. Each kept item satisfies all four facets, and every catalog item satisfying them is kept, with its multiplicity. |
| `BrowseFilter.FilterItemsIsOneFilter` | src/pages/BrowsePage.tsx:58-62 | The four chained `.filter` calls equal one filter by the conjunction of the four facets. |
| `BrowseFilter.FilterIdentity` | src/pages/BrowsePage.tsx:35-62 | With the default facets and a range that covers every item, the filter returns the whole catalog in order. |
| `BrowseFilter.TagsAreConjunctive` | src/pages/BrowsePage.tsx:61 | An item that has only one of two active tags is dropped. |
| `BrowseFilter.EmptyTagsNoRestriction` | src/pages/BrowsePage.tsx:61 | With no active tag, the filter stage equals the filter by the other three facets. |
| `BrowseFilter.SearchIgnoresCase` | src/pages/BrowsePage.tsx:59 | Folding the search term or the title to lower case first does not change whether an item matches. |
| `BrowseFilter.SearchFindsOwnTitle` | src/pages/BrowsePage.tsx:59 | Searching for an item's own title, as typed or lower-cased, finds it. |
| `BrowseFilter.EmptyRangeEmptyResult` | src/pages/BrowsePage.tsx:62 | When no view count lies in the range, nothing passes the filter. |
| `BrowseFilter.FilterDependsOnMembershipOnly` | src/pages/BrowsePage.tsx:58-62 | Two facet states whose category and tag lists agree on membership filter identically, whatever the order or repetition of the lists. |
| `Text.ToLower` | src/pages/BrowsePage.tsx:59 | Case folding keeps the length and each position, and it leaves no upper-case letter. |
| `Text.Contains` | src/pages/BrowsePage.tsx:59 | `includes` holds exactly when the needle occurs at some position of the haystack. |
| `Text.ContainsEmpty` | src/pages/BrowsePage.tsx:59 | An empty search term matches every title. |
| `BrowseSort.OrderOf` | src/pages/BrowsePage.tsx:64-71 | Every `sortBy` value other than the three named keys selects newest first. |
| `BrowseSort.Compare` | src/pages/BrowsePage.tsx:63-72 | The comparator puts `a` first exactly when it has more views, more likes, an earlier date or a later date, for `views_desc`, `likes_desc`, `date_asc` and newest first respectively. |
| `BrowseSort.CompareIsRankDifference` | src/pages/BrowsePage.tsx:63-72 | Each comparator is the difference of two sort keys, so it is a consistent total preorder. |
| `BrowseSort.SortItems` | src/pages/BrowsePage.tsx:63-72 | The sort output is a permutation of its input, in key order. Items with equal keys keep their input order, which is the stability of `Array.prototype.sort`. |
| `BrowseSort.SortOrderMeaning` | src/pages/BrowsePage.tsx:64-71 | Per key: `views_desc` puts most viewed first, `likes_desc` most liked first, and `date_asc` oldest first. `date_desc` and any other key put newest first. |
| `BrowseSort.SortItemsIsTheStableSort` | src/pages/BrowsePage.tsx:63-72 | Any key-ordered sequence that keeps the input order within each key equals the sort's output, so the stable sort is unique. |
| `BrowseSort.SortKeepsLength` | src/pages/BrowsePage.tsx:63-72 | Sorting neither drops nor duplicates items. |
| `BrowsePaging.TotalPages` | src/pages/BrowsePage.tsx:74 | The page count is the least number of nine-item pages that hold all results. |
| `BrowsePaging.Page` | src/pages/BrowsePage.tsx:75 | A page holds the results at positions `(page-1)*9 .. page*9-1` that exist, in order. It has at most nine items and takes items only from the results. |
| `BrowsePaging.PageEmptyIffBeyondLast` | src/pages/BrowsePage.tsx:74-75 | A page is empty exactly when its number exceeds the page count. |
| `BrowsePaging.PagesCoverAll` | src/pages/BrowsePage.tsx:74-75 | Concatenating pages 1 to `totalPages` reproduces the sorted results exactly, with no gap and no repeat. |
| `BrowsePaging.LinksFrom` | src/pages/BrowsePage.tsx:205-224 | The link row lists pages in increasing order. It draws a link, active on the current page, for page 1, the last page and the current page's neighbours. It draws an ellipsis for other pages two away from the current page, and nothing else. |
| `BrowsePaging.LinkRowIsShort` | src/pages/BrowsePage.tsx:205-224 | However many pages there are, the row has at most seven entries. |
| `BrowsePaging.PagerFor` | src/pages/BrowsePage.tsx:194-229 | The pager is drawn only when there is more than one page. Previous is greyed out on page 1 and Next on the last page. |
| `Browse.Recompute` | src/pages/BrowsePage.tsx:58-75 | One render keeps exactly the matching catalog items with their multiplicities. It orders them by the selected key, keeping catalog order among equal keys, as the stable sort does. The page count is their ceiling over nine. The page slice is the current page's nine-item window of that ordered list. It is empty exactly when `currentPage` exceeds the page count, and it shows only matching catalog items. |
| `Browse.HandlePageChange` | src/pages/BrowsePage.tsx:77-82 | A requested page is adopted exactly when it lies in `1..totalPages`. Otherwise the state is unchanged, and the facets are never touched. |
| `Browse.Offered` | src/pages/BrowsePage.tsx:194-229 | Facet controls are always available. A page link is clickable exactly when there is more than one page and the link row draws that page number. The Previous arrow is live exactly when there is more than one page and the current page is not 1. The Next arrow is live exactly when there is more than one page and the current page is not the last. |
| `Browse.Apply` | src/pages/BrowsePage.tsx:94-229 | The handlers wired to the sidebar and the pager. Facet events never move `currentPage`. A page event whose link or arrow is not drawn does nothing. Any move lands on a page in `1..totalPages` and leaves the facets alone. |
| `Browse.ApplySidebarEvents` | src/pages/BrowsePage.tsx:94-151 | The search box sets the term, a category checkbox or a tag chip toggles that value, the sort menu sets the key and the slider sets the view range. Nothing else changes. |
| `Browse.ApplyPageEvents` | src/pages/BrowsePage.tsx:199-229 | A drawn page link adopts its page. A live arrow adopts the neighbouring page when `handlePageChange` accepts it. When the current page is stale, a live arrow leaves the state unchanged. |
| `Browse.StaleSinglePageIsStuck` | src/pages/BrowsePage.tsx:181-194 | With a stale page number and at most one page of results, no pager is drawn. Every page event is then a no-op, and the page shows no items. |
| `Browse.FacetChangeKeepsPage` | src/pages/BrowsePage.tsx:84-156 | Search, category, tag, sort and range changes never move `currentPage`: there is no clamping. |
| `Browse.Run` | src/pages/BrowsePage.tsx:35-82 | From mount on page 1, every sequence of events keeps `currentPage` at least 1. |
| `Browse.StalePageShowsNothing` | src/pages/BrowsePage.tsx:181-191 | After a facet change that leaves fewer pages than the current page number, the page renders no items. |
| `Browse.ToggleCategoryTwiceSameResult` | src/pages/BrowsePage.tsx:46-50 | Checking and unchecking a category gives back the same rendered result. |
| `Browse.ToggleTagTwiceSameResult` | src/pages/BrowsePage.tsx:52-56 | Activating and deactivating a tag gives back the same rendered result. |
| `Browse.DefaultViewOfTwentyFive` | src/pages/BrowsePage.tsx:31-40 | On mount, 25 items whose view counts lie in the default range give three pages, with nine items on the first. |
| `Wizard.NextAllowed` | src/components/SubmissionWizardForm.tsx:15-23 | Step 1 passes when the title has at least five characters and the content type is article, video, image or link. Step 2 passes when the url is empty or a URL and the description has at least twenty characters. Any other step is checked against the full schema. |
| `Wizard.ResolverValid` | src/components/SubmissionWizardForm.tsx:54-63 | The resolver checks the step 1 schema on step 1 and the step 1 and 2 schemas on step 2. On any other step it checks the merged schema of the whole submission. Every one of these includes the step 1 schema. |
| `Wizard.HandleNext` | src/components/SubmissionWizardForm.tsx:67-79 | Next advances exactly one step when the step's fields validate, and otherwise leaves the step unchanged. |
| `Wizard.HandlePrev` | src/components/SubmissionWizardForm.tsx:81-83 | Previous goes exactly one step back. |
| `Wizard.HandleSubmit` | src/components/SubmissionWizardForm.tsx:85-96 | The success step is reached exactly when the resolver's schema holds and `onSubmit` completes. Otherwise the step is unchanged. |
| `Wizard.ButtonsFor` | src/components/SubmissionWizardForm.tsx:201-215 | Previous is drawn only after step 1, Next only before step 3, and Submit only on step 3. The success screen shows only "Submit Another". |
| `Wizard.Offered` | src/components/SubmissionWizardForm.tsx:101-215 | Editing and submitting are available on every form step, Submit by the button on step 3 and by Enter on steps 1 and 2. Next is available before step 3, Previous after step 1, and "Submit Another" only on the success screen. |
| `Wizard.Press` | src/components/SubmissionWizardForm.tsx:67-111 | An action the screen does not offer changes nothing. An offered edit replaces the fields, and only an edit changes them. Next advances exactly when the step's fields validate. Previous goes back one step. An offered submit reaches the success step exactly when it is accepted and the step's resolver schema holds. "Submit Another" returns to step 1. |
| `Wizard.PressKeepsStepInRange` | src/components/SubmissionWizardForm.tsx:67-111 | Each action the screen offers keeps the step within 1..4. |
| `Wizard.Run` | src/components/SubmissionWizardForm.tsx:41 | Starting on step 1, every sequence of actions keeps the step within 1..4. |
| `Wizard.SuccessOnlyAfterValidSubmit` | src/components/SubmissionWizardForm.tsx:54-96 | Only an accepted submit whose current step passes the resolver's schema for that step reaches the success step. From step 3 that is the merged schema of all three steps. |
| `Wizard.EarlySubmitSkipsLaterSteps` | src/components/SubmissionWizardForm.tsx:54-91 | Enter on step 1 with a valid title and content type reaches the success step, even though the form has no description and no category. |
| `Wizard.ForwardMovesAreValidated` | src/components/SubmissionWizardForm.tsx:67-79 | Leaving step 1 forward requires the step 1 schema, and leaving step 2 forward requires the step 2 schema. |
| `Wizard.FailedSubmitStays` | src/components/SubmissionWizardForm.tsx:85-96 | On any form step, a submit that fails the step's schema or whose `onSubmit` throws leaves the wizard exactly as it was. |
| `Wizard.SubmitAnotherRestarts` | src/components/SubmissionWizardForm.tsx:111 | "Submit Another" returns from the success step to step 1. |
| `Detail.Open` | src/pages/ContentDetailPage.tsx:55-62 | An entry is shown exactly when the id is present, non-empty and known, and its likes and comments then seed the state. Otherwise the not-found state has zero likes and no comments. |
| `Detail.HandleLike` | src/pages/ContentDetailPage.tsx:76-78 | Liking adds one and unliking removes one, and the liked flag flips. |
| `Detail.LikeTwiceRestores` | src/pages/ContentDetailPage.tsx:76-78 | Liking twice restores both the counter and the flag. |
| `Detail.LikesInvariant` | src/pages/ContentDetailPage.tsx:57-78 | The counter equals the initial count plus one exactly while liked. The initial count is the entry's count for a known id and 0 otherwise. Opening the page establishes this, and liking or commenting preserves it. |
| `Detail.CommentId` | src/pages/ContentDetailPage.tsx:86 | The id of the n-th comment is `c` followed by the numeral of n, with no leading zero, and reading that numeral back gives n. |
| `Detail.CommentIdInjective` | src/pages/ContentDetailPage.tsx:86 | Different positions get different ids. |
| `Detail.HandleComment` | src/pages/ContentDetailPage.tsx:82-95 | A comment that is blank after trimming changes nothing. Otherwise exactly one comment is appended after the old ones, with the trimmed text, the next id and the current user, and the box is cleared. |
| `Detail.TypeComment` | src/pages/ContentDetailPage.tsx:196 | Typing replaces the comment box's text and changes nothing else. |
| `Detail.PostingKeepsNumbering` | src/pages/ContentDetailPage.tsx:82-95 | Posting keeps a list numbered `c1, c2, ...` in order, so its ids stay pairwise distinct. |
| `Detail.PostAppends` | src/pages/ContentDetailPage.tsx:84-91 | Posting text without surrounding whitespace appends exactly that text under the next id. |
| `Detail.DuplicateIdFromUnnumberedList` | src/pages/ContentDetailPage.tsx:82-91 | An entry whose only comment is `c3`, like the second sample entry, gets a third comment whose id repeats `c3` after two posts. |
| `Text.Trim` | src/pages/ContentDetailPage.tsx:84 | Trimming keeps an infix, and only whitespace is cut from either end. The result neither starts nor ends with whitespace, and it is empty exactly when the input is all whitespace. |
| `Text.TrimOfPadded` | src/pages/ContentDetailPage.tsx:84 | Trimming whitespace padding around a clean string gives back exactly that string. |
| `Text.TrimIdempotent` | src/pages/ContentDetailPage.tsx:84 | Trimming twice is trimming once. |
| `Text.NatToString` | src/pages/ContentDetailPage.tsx:86 | A number renders as a nonempty string of decimal digits with no leading zero, one digit exactly below ten. |
| `Text.ParseNatToString` | src/pages/ContentDetailPage.tsx:86 | Reading back the numeral that a template literal renders gives the number. |
| `Detail.BreadcrumbTitle` | src/pages/ContentDetailPage.tsx:108 | The breadcrumb has at most 30 characters. A title of up to 30 is kept. A longer one becomes its first 27 characters followed by `...`, exactly 30 in all. |
| `Detail.BreadcrumbIdempotent` | src/pages/ContentDetailPage.tsx:108 | Shortening an already shortened title changes nothing. |

## Left out

- Rendering (JSX and CSS classes), `window.scrollTo`, `console.log` and toast notifications are presentation and side effects.
- The mobile "Show Filters" flag only shows or hides the sidebar.
- The random mock catalog of the browse page is replaced by an arbitrary sequence of items. Its ISO date strings become integer timestamps, because `new Date(...).getTime()` of them is an integer in the source.
- Carousel, routing, navigation, footer, cards, tags, and the home, profile and submit pages are static layout or glue.
- The comparator's results are exact integer differences. View counts, like counts and timestamps are finite integers, so JavaScript's floating-point subtraction never yields NaN for them.
- Text.ToLower: folds only the ASCII letters A-Z. JavaScript's `toLowerCase` applies the full Unicode case mapping.
- Strings are sequences of characters. JavaScript measures `length` in UTF-16 code units, so title, description and breadcrumb lengths differ for text outside the Basic Multilingual Plane.
- Wizard.NextAllowed: whether a string is a URL is the parameter `isUrl`, because `z.string().url()` belongs to the validation library.
- Wizard.HandleSubmit: the asynchronous `onSubmit` is replaced by the flag `accepted`, which says whether its promise resolved.
- The `isSubmitting` state that disables the submit button while the promise is pending is not modelled.
- Wizard.Press: the submit event stands for both the Submit button and Enter in a form field. Which field has focus, and the browser's implicit-submission rules beyond "one text or URL input and no submit button", are not modelled.
- The form library's error messages and its `mode: 'onChange'` re-validation do not affect the step and are not modelled.
- Detail.Open: the catalog is a map from ids to entries. Property names that JavaScript objects inherit, such as `constructor`, are not treated as ids.
- Detail.HandleLike, Detail.HandleComment: both apply to any state, including one whose entry was not found. The page returns its "not found" card before it draws the like button or the comment form, so in the source these handlers are never reached there.
- The detail page's media embed, description, and submitter and tag display are static rendering.

=== FILE: browse.dfy ===
/**
  The browse page as a whole: the facet state it keeps, the facet-change and
  page-change handlers, and the recomputation filter -> sort -> paginate that
  every render performs.
 */
module Browse {
  import Seqs
  import opened Catalog
  import opened BrowseFilter
  import opened BrowseSort
  import opened BrowsePaging

  /** The page's state variables (the sidebar open/closed flag is presentation only). */
  datatype BrowseState = BrowseState(criteria: Criteria, sortBy: string, currentPage: int)

  /** The state on mount: no search, no category or tag, views 0 to 2000, newest first, page 1. */
  const Initial := BrowseState(DefaultCriteria, "date_desc", 1)

  // ---------------------------------------------------------------------------
  // Facet toggles
  // ---------------------------------------------------------------------------

  /**
    `handleCategoryChange` / `handleTagToggle`: removes every copy of `x` when
    present, appends it otherwise. Membership of `x` flips and membership of
    every other value is unchanged.
   */
  function Toggle(xs: seq<string>, x: string): (r: seq<string>)
    ensures x in r <==> x !in xs
    ensures forall y :: y != x ==> (y in r <==> y in xs)
  {
    if x in xs then Seqs.Filter(xs, y => y != x) else xs + [x]
  }

  /** Toggling the same value twice restores every membership. */
  lemma ToggleTwice(xs: seq<string>, x: string)
    ensures forall y :: y in Toggle(Toggle(xs, x), x) <==> y in xs
  {
  }

  /** When the value was absent, toggling it twice gives back exactly the same list. */
  lemma ToggleTwiceFromAbsent(xs: seq<string>, x: string)
    requires x !in xs
    ensures Toggle(Toggle(xs, x), x) == xs
  {
    Seqs.FilterAll(xs, y => y != x);
    Seqs.FilterCons(x, [], y => y != x);
    FilterSplit(xs, [x], y => y != x);
  }

  /** Filtering a concatenation whose second half is entirely dropped keeps only the first half's survivors. */
  lemma {:induction false} FilterSplit(a: seq<string>, b: seq<string>, p: string -> bool)
    requires forall y :: y in b ==> !p(y)
    ensures Seqs.Filter(a + b, p) == Seqs.Filter(a, p)
    decreases |a|
  {
    if |a| == 0 {
      assert a + b == b;
    } else {
      assert (a + b)[1..] == a[1..] + b;
      FilterSplit(a[1..], b, p);
    }
  }

  /** Values without repeats stay without repeats under toggling. */
  ghost predicate Distinct(xs: seq<string>) {
    forall i, j :: 0 <= i < j < |xs| ==> xs[i] != xs[j]
  }

  lemma ToggleKeepsDistinct(xs: seq<string>, x: string)
    requires Distinct(xs)
    ensures Distinct(Toggle(xs, x))
  {
    if x in xs {
      FilterKeepsDistinct(xs, y => y != x);
    }
  }

  lemma {:induction false} FilterKeepsDistinct(xs: seq<string>, p: string -> bool)
    requires Distinct(xs)
    ensures Distinct(Seqs.Filter(xs, p))
    decreases |xs|
  {
    if |xs| > 0 {
      FilterKeepsDistinct(xs[1..], p);
      var rest := Seqs.Filter(xs[1..], p);
      assert xs[0] !in xs[1..];
      assert xs[0] !in rest;
    }
  }

  // ---------------------------------------------------------------------------
  // Recompute
  // ---------------------------------------------------------------------------

  /** What one render shows: the filtered and sorted items, the page count and the current page's slice. */
  datatype QueryResult = QueryResult(ordered: seq<Item>, totalPages: nat, pageItems: seq<Item>)

  /**
    The render-time pipeline. The ordered list holds exactly the catalog items
    that satisfy the facets, with their multiplicity, in key order with equal
    keys in catalog order (a stable sort); the page count is the ceiling of
    its length over nine; the page slice is the current page's nine-item
    window of the ordered list, empty exactly when the current page lies
    beyond the last page.
   */
  function Recompute(items: seq<Item>, st: BrowseState): (r: QueryResult)
    requires st.currentPage >= 1
    ensures forall it :: multiset(r.ordered)[it] == if Matches(st.criteria, it) then multiset(items)[it] else 0
    ensures Sorted(OrderOf(st.sortBy), r.ordered)
    ensures forall k :: Class(OrderOf(st.sortBy), r.ordered, k) == Class(OrderOf(st.sortBy), FilterItems(items, st.criteria), k)
    ensures r.pageItems == Page(r.ordered, st.currentPage)
    ensures r.totalPages * ItemsPerPage >= |r.ordered| && (r.totalPages > 0 ==> (r.totalPages - 1) * ItemsPerPage < |r.ordered|)
    ensures r.pageItems == [] <==> st.currentPage > r.totalPages
    ensures forall it :: it in r.pageItems ==> it in items && Matches(st.criteria, it)
  {
    var filtered := FilterItems(items, st.criteria);
    var ordered := SortItems(OrderOf(st.sortBy), filtered);
    var total := TotalPages(|ordered|);
    var page := Page(ordered, st.currentPage);
    PageEmptyIffBeyondLast(ordered, st.currentPage);
    PipelineCounts(items, st.criteria, filtered, ordered, page);
    QueryResult(ordered, total, page)
  }

  /** Sorting and slicing neither add items nor break the facets: counts carry over and the page holds matching catalog items. */
  lemma PipelineCounts(items: seq<Item>, c: Criteria, filtered: seq<Item>, ordered: seq<Item>, page: seq<Item>)
    requires filtered == FilterItems(items, c)
    requires multiset(ordered) == multiset(filtered)
    requires multiset(page) <= multiset(ordered)
    ensures forall it :: multiset(ordered)[it] == if Matches(c, it) then multiset(items)[it] else 0
    ensures forall it :: it in page ==> it in items && Matches(c, it)
  {
    forall it | it in page ensures it in items && Matches(c, it) {
      assert it in multiset(page);
      assert it in multiset(filtered);
    }
  }

  // ---------------------------------------------------------------------------
  // Events
  // ---------------------------------------------------------------------------

  /** The user interactions the page handles. */
  datatype Event =
    | SetSearch(term: string)
    | ToggleCategory(category: string)
    | ToggleTag(tag: string)
    | SetSortBy(key: string)
    | SetViewRange(lo: int, hi: int)
    | PageChange(page: int)
    | PreviousPage
    | NextPage

  /** `handlePageChange`: accepts a page number only between 1 and the current page count. */
  function HandlePageChange(items: seq<Item>, st: BrowseState, page: int): (st': BrowseState)
    requires st.currentPage >= 1
    ensures st'.criteria == st.criteria && st'.sortBy == st.sortBy
    ensures st'.currentPage >= 1
    ensures 1 <= page <= TotalPages(|FilterItems(items, st.criteria)|) ==> st'.currentPage == page
    ensures !(1 <= page <= TotalPages(|FilterItems(items, st.criteria)|)) ==> st' == st
  {
    SortKeepsLength(OrderOf(st.sortBy), FilterItems(items, st.criteria));
    if 1 <= page <= Recompute(items, st).totalPages then st.(currentPage := page) else st
  }

  /**
    Whether the page shows the control that raises `e`. The facet controls
    are always in the sidebar. The pager exists only while there is more
    than one page; a page number is clickable only when its link is drawn,
    and the arrows only when they are not greyed out.
   */
  function Offered(items: seq<Item>, st: BrowseState, e: Event): (b: bool)
    requires st.currentPage >= 1
    ensures !e.PageChange? && !e.PreviousPage? && !e.NextPage? ==> b
    ensures e.PageChange? ==>
      var t := TotalPages(|FilterItems(items, st.criteria)|);
      (b <==> t > 1 && 1 <= e.page <= t && ShowsLink(t, st.currentPage, e.page))
    ensures e.PreviousPage? ==> (b <==> TotalPages(|FilterItems(items, st.criteria)|) > 1 && st.currentPage != 1)
    ensures e.NextPage? ==>
      var t := TotalPages(|FilterItems(items, st.criteria)|);
      (b <==> t > 1 && st.currentPage != t)
  {
    match e
    case PageChange(p) => PagerOf(items, st).Shown? && Link(p, p == st.currentPage) in PagerOf(items, st).links
    case PreviousPage => PagerOf(items, st).Shown? && !PagerOf(items, st).previousDisabled
    case NextPage => PagerOf(items, st).Shown? && !PagerOf(items, st).nextDisabled
    case _ => true
  }

  /** The pager under the current results. */
  function PagerOf(items: seq<Item>, st: BrowseState): Pager
    requires st.currentPage >= 1
  {
    PagerFor(TotalPages(|FilterItems(items, st.criteria)|), st.currentPage)
  }

  /** The page events, which go through `handlePageChange`. */
  predicate IsPageEvent(e: Event) {
    e.PageChange? || e.PreviousPage? || e.NextPage?
  }

  /**
    One event applied to the state. Facet changes leave `currentPage` where
    it was; a page event the page does not offer changes nothing; an offered
    one moves only to a page within `1..totalPages`.
   */
  function Apply(items: seq<Item>, st: BrowseState, e: Event): (st': BrowseState)
    requires st.currentPage >= 1
    ensures st'.currentPage >= 1
    ensures !IsPageEvent(e) ==> st'.currentPage == st.currentPage
    ensures !Offered(items, st, e) ==> st' == st
    ensures st'.currentPage != st.currentPage ==>
      && 1 <= st'.currentPage <= TotalPages(|FilterItems(items, st.criteria)|)
      && st'.criteria == st.criteria && st'.sortBy == st.sortBy
  {
    if !Offered(items, st, e) then st
    else
      match e
      case SetSearch(term) => st.(criteria := st.criteria.(searchTerm := term))
      case ToggleCategory(c) => st.(criteria := st.criteria.(selectedCategories := Toggle(st.criteria.selectedCategories, c)))
      case ToggleTag(t) => st.(criteria := st.criteria.(activeTags := Toggle(st.criteria.activeTags, t)))
      case SetSortBy(key) => st.(sortBy := key)
      case SetViewRange(lo, hi) => st.(criteria := st.criteria.(minViews := lo, maxViews := hi))
      case PageChange(p) => HandlePageChange(items, st, p)
      case PreviousPage => HandlePageChange(items, st, st.currentPage - 1)
      case NextPage => HandlePageChange(items, st, st.currentPage + 1)
  }

  /**
    What each sidebar control does: the search box sets the term, a category
    checkbox or a tag chip toggles that value, the sort menu sets the key and
    the slider sets the view range. Nothing else changes.
   */
  lemma ApplySidebarEvents(items: seq<Item>, st: BrowseState, e: Event)
    requires st.currentPage >= 1
    requires !IsPageEvent(e)
    ensures e.SetSearch? ==> Apply(items, st, e) == st.(criteria := st.criteria.(searchTerm := e.term))
    ensures e.ToggleCategory? ==>
      Apply(items, st, e) == st.(criteria := st.criteria.(selectedCategories := Toggle(st.criteria.selectedCategories, e.category)))
    ensures e.ToggleTag? ==>
      Apply(items, st, e) == st.(criteria := st.criteria.(activeTags := Toggle(st.criteria.activeTags, e.tag)))
    ensures e.SetSortBy? ==> Apply(items, st, e) == st.(sortBy := e.key)
    ensures e.SetViewRange? ==> Apply(items, st, e) == st.(criteria := st.criteria.(minViews := e.lo, maxViews := e.hi))
  {
    assert Offered(items, st, e);
  }

  /**
    What each drawn pager control does: a page link adopts its page; an arrow
    adopts the neighbouring page when `handlePageChange` accepts it, which it
    does not when the current page is stale.
   */
  lemma ApplyPageEvents(items: seq<Item>, st: BrowseState, e: Event)
    requires st.currentPage >= 1
    requires IsPageEvent(e) && Offered(items, st, e)
    ensures e.PageChange? ==> Apply(items, st, e) == st.(currentPage := e.page)
    ensures e.PreviousPage? ==>
      var t := TotalPages(|FilterItems(items, st.criteria)|);
      Apply(items, st, e) == if st.currentPage - 1 <= t then st.(currentPage := st.currentPage - 1) else st
    ensures e.NextPage? ==>
      var t := TotalPages(|FilterItems(items, st.criteria)|);
      Apply(items, st, e) == if st.currentPage + 1 <= t then st.(currentPage := st.currentPage + 1) else st
  {
  }

  /** Only the three page events can move `currentPage`, and a facet change never does: there is no clamping. */
  lemma FacetChangeKeepsPage(items: seq<Item>, st: BrowseState, e: Event)
    requires st.currentPage >= 1
    requires !IsPageEvent(e)
    ensures Apply(items, st, e).currentPage == st.currentPage
  {
  }

  /** The state reached from mount after a sequence of events. */
  function Run(items: seq<Item>, events: seq<Event>): (st: BrowseState)
    ensures st.currentPage >= 1
    decreases |events|
  {
    if |events| == 0 then Initial
    else
      var before := Run(items, events[..|events| - 1]);
      assert before.currentPage >= 1;
      Apply(items, before, events[|events| - 1])
  }

  /**
    The page shown after a facet change: because `currentPage` persists, a
    change that leaves fewer pages than the current page number renders the
    "No content found" branch even when items match.
   */
  lemma StalePageShowsNothing(items: seq<Item>, st: BrowseState, e: Event)
    requires st.currentPage >= 1
    requires !e.PageChange? && !e.PreviousPage? && !e.NextPage?
    ensures var st' := Apply(items, st, e);
      st'.currentPage == st.currentPage &&
      (st.currentPage > Recompute(items, st').totalPages ==> Recompute(items, st').pageItems == [])
  {
  }

  /** Toggling a category twice gives the same rendered result as before. */
  lemma ToggleCategoryTwiceSameResult(items: seq<Item>, st: BrowseState, c: string)
    requires st.currentPage >= 1
    ensures Recompute(items, Apply(items, Apply(items, st, ToggleCategory(c)), ToggleCategory(c))) == Recompute(items, st)
  {
    var st2 := Apply(items, Apply(items, st, ToggleCategory(c)), ToggleCategory(c));
    ToggleTwice(st.criteria.selectedCategories, c);
    FilterDependsOnMembershipOnly(items, st2.criteria, st.criteria);
  }

  /** Toggling a tag twice gives the same rendered result as before. */
  lemma ToggleTagTwiceSameResult(items: seq<Item>, st: BrowseState, t: string)
    requires st.currentPage >= 1
    ensures Recompute(items, Apply(items, Apply(items, st, ToggleTag(t)), ToggleTag(t))) == Recompute(items, st)
  {
    var st2 := Apply(items, Apply(items, st, ToggleTag(t)), ToggleTag(t));
    ToggleTwice(st.criteria.activeTags, t);
    FilterDependsOnMembershipOnly(items, st2.criteria, st.criteria);
  }

  /**
    A stale page number with at most one page of results is a dead end for
    the pager: no pager is drawn, so no page event does anything, and the
    page keeps showing "No content found" until a facet changes.
   */
  lemma StaleSinglePageIsStuck(items: seq<Item>, st: BrowseState, e: Event)
    requires st.currentPage > 1
    requires TotalPages(|FilterItems(items, st.criteria)|) <= 1
    requires e.PageChange? || e.PreviousPage? || e.NextPage?
    ensures Apply(items, st, e) == st
    ensures Recompute(items, st).pageItems == []
  {
    SortKeepsLength(OrderOf(st.sortBy), FilterItems(items, st.criteria));
    var total := Recompute(items, st).totalPages;
    assert total <= 1;
    assert !PagerOf(items, st).Shown?;
  }

  /**
    A 25-item catalog whose view counts all lie in the slider's default range
    renders, on mount, three pages with nine items on the first.
   */
  lemma DefaultViewOfTwentyFive(items: seq<Item>)
    requires |items| == 25
    requires forall it :: it in items ==> 0 <= it.viewCount <= 2000
    ensures Recompute(items, Initial).totalPages == 3
    ensures |Recompute(items, Initial).pageItems| == 9
  {
    FilterIdentity(items, 0, 2000);
    var ordered := SortItems(OrderOf(Initial.sortBy), items);
    SortKeepsLength(OrderOf(Initial.sortBy), items);
    RecomputeShape(items, Initial, ordered);
    PagesOfTwentyFive(ordered);
  }

  lemma PagesOfTwentyFive(s: seq<Item>)
    requires |s| == 25
    ensures TotalPages(|s|) == 3 && |Page(s, 1)| == 9
  {
  }

  /** The fields of `Recompute` in terms of the sorted list. */
  lemma RecomputeShape(items: seq<Item>, st: BrowseState, ordered: seq<Item>)
    requires st.currentPage >= 1
    requires ordered == SortItems(OrderOf(st.sortBy), FilterItems(items, st.criteria))
    ensures Recompute(items, st).totalPages == TotalPages(|ordered|)
    ensures Recompute(items, st).pageItems == Page(ordered, st.currentPage)
  {
  }
}

=== FILE: browse_filter.dfy ===
/**
  The filter stage of the browse page: four predicates over an item, applied
  one after the other with `Array.prototype.filter`.
 */
module BrowseFilter {
  import Seqs
  import Text
  import opened Catalog

  /** The facet values the filter stage reads. */
  datatype Criteria = Criteria(
    searchTerm: string,
    selectedCategories: seq<string>,
    activeTags: seq<string>,
    minViews: int,
    maxViews: int
  )

  /** Case-folded title search; an empty search term matches every title. */
  predicate MatchesSearch(searchTerm: string, it: Item) {
    Text.Contains(Text.ToLower(it.title), Text.ToLower(searchTerm))
  }

  /** Category filter; no selected category means no restriction. */
  predicate MatchesCategory(selected: seq<string>, it: Item) {
    |selected| == 0 || it.category in selected
  }

  /** Tag filter: every active tag must be on the item ("all of", not "any of"). */
  predicate HasAllTags(active: seq<string>, it: Item) {
    |active| == 0 || forall t :: t in active ==> t in it.tags
  }

  /** Inclusive view-count range. */
  predicate InViewRange(minViews: int, maxViews: int, it: Item) {
    it.viewCount >= minViews && it.viewCount <= maxViews
  }

  /** The conjunction of the four predicates. */
  predicate Matches(c: Criteria, it: Item) {
    && MatchesSearch(c.searchTerm, it)
    && MatchesCategory(c.selectedCategories, it)
    && HasAllTags(c.activeTags, it)
    && InViewRange(c.minViews, c.maxViews, it)
  }

  /**
    The four chained `.filter` calls. The result is the order-preserving
    subsequence of `items` made of exactly the items that satisfy all four
    predicates, each with its multiplicity in `items`.
   */
  function FilterItems(items: seq<Item>, c: Criteria): (r: seq<Item>)
    ensures Seqs.IsSubsequence(r, items)
    ensures forall it :: it in r ==> Matches(c, it)
    ensures forall it :: it in items && Matches(c, it) ==> it in r
    ensures forall it :: multiset(r)[it] == if Matches(c, it) then multiset(items)[it] else 0
  {
    var bySearch := Seqs.Filter(items, it => MatchesSearch(c.searchTerm, it));
    var byCategory := Seqs.Filter(bySearch, it => MatchesCategory(c.selectedCategories, it));
    var byTags := Seqs.Filter(byCategory, it => HasAllTags(c.activeTags, it));
    var byRange := Seqs.Filter(byTags, it => InViewRange(c.minViews, c.maxViews, it));
    FilterItemsIsOneFilter(items, c);
    MatchesFilter(items, c, byRange);
    byRange
  }

  /** What `Seqs.Filter` promises, stated for the conjunction `Matches`. */
  lemma MatchesFilter(items: seq<Item>, c: Criteria, r: seq<Item>)
    requires r == Seqs.Filter(items, it => Matches(c, it))
    ensures Seqs.IsSubsequence(r, items)
    ensures forall it :: it in r ==> Matches(c, it)
    ensures forall it :: it in items && Matches(c, it) ==> it in r
    ensures forall it :: multiset(r)[it] == if Matches(c, it) then multiset(items)[it] else 0
  {
  }

  /** The chain of four filters is one filter with the conjunction `Matches`. */
  lemma FilterItemsIsOneFilter(items: seq<Item>, c: Criteria)
    ensures
      var bySearch := Seqs.Filter(items, it => MatchesSearch(c.searchTerm, it));
      var byCategory := Seqs.Filter(bySearch, it => MatchesCategory(c.selectedCategories, it));
      var byTags := Seqs.Filter(byCategory, it => HasAllTags(c.activeTags, it));
      Seqs.Filter(byTags, it => InViewRange(c.minViews, c.maxViews, it)) == Seqs.Filter(items, it => Matches(c, it))
  {
    var p1 := it => MatchesSearch(c.searchTerm, it);
    var p2 := it => MatchesCategory(c.selectedCategories, it);
    var p3 := it => HasAllTags(c.activeTags, it);
    var p4 := it => InViewRange(c.minViews, c.maxViews, it);
    var p12 := it => p1(it) && p2(it);
    var p123 := it => p12(it) && p3(it);
    Seqs.FilterFusion(items, p1, p2, p12);
    Seqs.FilterFusion(items, p12, p3, p123);
    Seqs.FilterFusion(items, p123, p4, it => Matches(c, it));
  }

  /** The facet defaults of the page as filter criteria. */
  const DefaultCriteria := Criteria("", [], [], 0, 2000)

  /**
    With no search text, no category, no tag and a view range that covers
    every item, the filter stage returns the whole catalog, in order.
   */
  lemma FilterIdentity(items: seq<Item>, minViews: int, maxViews: int)
    requires forall it :: it in items ==> minViews <= it.viewCount <= maxViews
    ensures FilterItems(items, Criteria("", [], [], minViews, maxViews)) == items
  {
    var c := Criteria("", [], [], minViews, maxViews);
    forall it | it in items ensures Matches(c, it) {
      Text.ContainsEmpty(Text.ToLower(it.title));
    }
    FilterItemsIsOneFilter(items, c);
    Seqs.FilterAll(items, it => Matches(c, it));
  }

  /** Tag filtering is conjunctive: an item carrying only one of two active tags is dropped. */
  lemma TagsAreConjunctive(items: seq<Item>, c: Criteria, it: Item, t1: string, t2: string)
    requires c.activeTags == [t1, t2]
    requires t1 in it.tags && t2 !in it.tags
    ensures it !in FilterItems(items, c)
  {
    assert t2 in c.activeTags;
  }

  /** With no active tag the tag stage drops nothing: the result is the filter by the other three facets. */
  lemma EmptyTagsNoRestriction(items: seq<Item>, c: Criteria)
    requires c.activeTags == []
    ensures FilterItems(items, c) == Seqs.Filter(items, it =>
      MatchesSearch(c.searchTerm, it) && MatchesCategory(c.selectedCategories, it) && InViewRange(c.minViews, c.maxViews, it))
  {
    FilterItemsIsOneFilter(items, c);
    Seqs.FilterCongruence(items, it => Matches(c, it), it =>
      MatchesSearch(c.searchTerm, it) && MatchesCategory(c.selectedCategories, it) && InViewRange(c.minViews, c.maxViews, it));
  }

  /** The search ignores case on both sides: folding the search term or the title first changes nothing. */
  lemma SearchIgnoresCase(term: string, it: Item)
    ensures MatchesSearch(Text.ToLower(term), it) == MatchesSearch(term, it)
    ensures MatchesSearch(term, it.(title := Text.ToLower(it.title))) == MatchesSearch(term, it)
  {
    Text.ToLowerIdempotent(term);
    Text.ToLowerIdempotent(it.title);
  }

  /** Searching for an item's own title, in any case, finds it. */
  lemma SearchFindsOwnTitle(it: Item)
    ensures MatchesSearch(it.title, it)
    ensures MatchesSearch(Text.ToLower(it.title), it)
  {
    Text.ContainsSelf(Text.ToLower(it.title));
    SearchIgnoresCase(it.title, it);
  }

  /**
    When no item's view count lies in the selected range the filter stage
    yields nothing (the page then shows its empty-state message).
   */
  lemma EmptyRangeEmptyResult(items: seq<Item>, c: Criteria)
    requires forall it :: it in items ==> !(c.minViews <= it.viewCount <= c.maxViews)
    ensures FilterItems(items, c) == []
  {
  }

  /**
    The filter reads the selected categories and the active tags only through
    membership: two criteria that agree on membership give the same result.
   */
  lemma FilterDependsOnMembershipOnly(items: seq<Item>, c: Criteria, d: Criteria)
    requires c.searchTerm == d.searchTerm && c.minViews == d.minViews && c.maxViews == d.maxViews
    requires forall x :: x in c.selectedCategories <==> x in d.selectedCategories
    requires forall x :: x in c.activeTags <==> x in d.activeTags
    ensures FilterItems(items, c) == FilterItems(items, d)
  {
    assert |c.selectedCategories| == 0 <==> |d.selectedCategories| == 0 by {
      if |c.selectedCategories| > 0 { assert c.selectedCategories[0] in d.selectedCategories; }
      if |d.selectedCategories| > 0 { assert d.selectedCategories[0] in c.selectedCategories; }
    }
    assert |c.activeTags| == 0 <==> |d.activeTags| == 0 by {
      if |c.activeTags| > 0 { assert c.activeTags[0] in d.activeTags; }
      if |d.activeTags| > 0 { assert d.activeTags[0] in c.activeTags; }
    }
    FilterItemsIsOneFilter(items, c);
    FilterItemsIsOneFilter(items, d);
    Seqs.FilterCongruence(items, it => Matches(c, it), it => Matches(d, it));
  }
}

=== FILE: browse_paging.dfy ===
/**
  The paginator of the browse page: fixed pages of nine items, the page count,
  the slice shown for the current page, and the row of page links with
  ellipses under the results.
 */
module BrowsePaging {

  /** Items shown per page. */
  const ItemsPerPage: nat := 9

  /** `Math.ceil(n / ItemsPerPage)`: the least number of pages that hold `n` items. */
  function TotalPages(n: nat): (t: nat)
    ensures t * ItemsPerPage >= n
    ensures t > 0 ==> (t - 1) * ItemsPerPage < n
  {
    (n + ItemsPerPage - 1) / ItemsPerPage
  }

  /** `Array.prototype.slice` clips a non-negative index to the length. */
  function Clip(i: nat, n: nat): (c: nat)
    ensures c <= n && c <= i
    ensures c == i || c == n
  {
    if i > n then n else i
  }

  /**
    `s.slice((page - 1) * 9, page * 9)`: the items of positions
    `[(page - 1) * 9, page * 9)` that exist, in order.
   */
  function Page<T>(s: seq<T>, page: int): (r: seq<T>)
    requires page >= 1
    ensures |r| <= ItemsPerPage
    ensures |r| == if (page - 1) * ItemsPerPage >= |s| then 0
                   else if page * ItemsPerPage <= |s| then ItemsPerPage
                   else |s| - (page - 1) * ItemsPerPage
    ensures forall i :: 0 <= i < |r| ==> r[i] == s[(page - 1) * ItemsPerPage + i]
    ensures multiset(r) <= multiset(s)
  {
    var start := (page - 1) * ItemsPerPage;
    assert page * ItemsPerPage == start + ItemsPerPage;
    var lo := Clip(start, |s|);
    var hi := Clip(start + ItemsPerPage, |s|);
    assert s == s[..lo] + s[lo..hi] + s[hi..];
    s[lo..hi]
  }

  /** A page shows nothing exactly when it lies beyond the last page. */
  lemma PageEmptyIffBeyondLast<T>(s: seq<T>, page: int)
    requires page >= 1
    ensures Page(s, page) == [] <==> page > TotalPages(|s|)
  {
    var t := TotalPages(|s|);
    if page > t {
      assert (page - 1) * ItemsPerPage >= t * ItemsPerPage;
    } else {
      assert (page - 1) * ItemsPerPage <= (t - 1) * ItemsPerPage;
      assert |Page(s, page)| > 0;
    }
  }

  /** Pages `from` to `to`, concatenated in order. */
  function PagesFrom<T>(s: seq<T>, from: int, to: int): seq<T>
    requires from >= 1
    decreases if from > to then 0 else to - from + 1
  {
    if from > to then [] else Page(s, from) + PagesFrom(s, from + 1, to)
  }

  /** The pages from `from` to the last one together are the suffix of `s` that starts on page `from`. */
  lemma {:induction false} PagesFromCoverSuffix<T>(s: seq<T>, from: int)
    requires 1 <= from <= TotalPages(|s|) + 1
    ensures PagesFrom(s, from, TotalPages(|s|)) == s[Clip((from - 1) * ItemsPerPage, |s|)..]
    decreases TotalPages(|s|) + 1 - from
  {
    var t := TotalPages(|s|);
    if from > t {
      assert (from - 1) * ItemsPerPage >= |s|;
      assert PagesFrom(s, from, t) == [];
    } else {
      PagesFromCoverSuffix(s, from + 1);
      PageThenRest(s, from);
    }
  }

  /** A page followed by everything after it is everything from its start. */
  lemma PageThenRest<T>(s: seq<T>, page: int)
    requires page >= 1
    ensures Page(s, page) + s[Clip(page * ItemsPerPage, |s|)..] == s[Clip((page - 1) * ItemsPerPage, |s|)..]
  {
    var lo := Clip((page - 1) * ItemsPerPage, |s|);
    var hi := Clip(page * ItemsPerPage, |s|);
    assert page * ItemsPerPage == (page - 1) * ItemsPerPage + ItemsPerPage;
    assert lo <= hi;
    assert Page(s, page) == s[lo..hi];
    assert s[lo..] == s[lo..hi] + s[hi..];
  }

  /** Concatenating pages 1 to `TotalPages` reproduces the whole sequence: no gap, no repeat. */
  lemma PagesCoverAll<T>(s: seq<T>)
    ensures PagesFrom(s, 1, TotalPages(|s|)) == s
  {
    PagesFromCoverSuffix(s, 1);
  }

  // ---------------------------------------------------------------------------
  // Page links
  // ---------------------------------------------------------------------------

  /** One entry of the link row: a numbered link (highlighted when current) or an ellipsis. */
  datatype PageLink = Link(page: int, isActive: bool) | Ellipsis(page: int)

  /** A numbered link is drawn for the first and last pages and the neighbours of the current page. */
  predicate ShowsLink(totalPages: int, current: int, page: int) {
    page == 1 || page == totalPages || (page >= current - 1 && page <= current + 1)
  }

  /** Otherwise an ellipsis stands two pages away from the current page. */
  predicate ShowsEllipsis(totalPages: int, current: int, page: int) {
    !ShowsLink(totalPages, current, page) && (page == current - 2 || page == current + 2)
  }

  /** What page number `page` contributes to the row: one entry or nothing. */
  function EntryFor(totalPages: int, current: int, page: int): seq<PageLink> {
    if ShowsLink(totalPages, current, page) then [Link(page, current == page)]
    else if ShowsEllipsis(totalPages, current, page) then [Ellipsis(page)]
    else []
  }

  /** A well-formed entry for the given page row. */
  predicate ValidEntry(totalPages: int, current: int, e: PageLink) {
    match e
    case Link(p, active) => ShowsLink(totalPages, current, p) && active == (p == current)
    case Ellipsis(p) => ShowsEllipsis(totalPages, current, p)
  }

  /**
    The entries for pages `from` to `totalPages`, in page order: a link for
    every page that shows one, an ellipsis for every page that shows one,
    and nothing else.
   */
  function LinksFrom(totalPages: int, current: int, from: int): (r: seq<PageLink>)
    decreases if from > totalPages then 0 else totalPages - from + 1
    ensures forall i, j :: 0 <= i < j < |r| ==> r[i].page < r[j].page
    ensures forall e :: e in r ==> from <= e.page <= totalPages && ValidEntry(totalPages, current, e)
    ensures forall p :: from <= p <= totalPages && ShowsLink(totalPages, current, p) ==> Link(p, p == current) in r
    ensures forall p :: from <= p <= totalPages && ShowsEllipsis(totalPages, current, p) ==> Ellipsis(p) in r
  {
    if from > totalPages then []
    else
      var rest := LinksFrom(totalPages, current, from + 1);
      var r := EntryFor(totalPages, current, from) + rest;
      assert forall i :: 0 < i < |r| ==> r[i] in rest;
      r
  }

  /** A strictly increasing sequence drawn from `w` is no longer than `w` is large. */
  lemma {:induction false} IncreasingWithin(xs: seq<int>, w: set<int>)
    requires forall i, j :: 0 <= i < j < |xs| ==> xs[i] < xs[j]
    requires forall i :: 0 <= i < |xs| ==> xs[i] in w
    ensures |xs| <= |w|
    decreases |xs|
  {
    if |xs| > 0 {
      IncreasingWithin(xs[1..], w - {xs[0]});
    }
  }

  /**
    However many pages there are, the link row has at most seven entries:
    the first and last pages and five pages around the current one.
   */
  lemma LinkRowIsShort(totalPages: int, current: int)
    ensures |LinksFrom(totalPages, current, 1)| <= 7
  {
    var r := LinksFrom(totalPages, current, 1);
    var pages := seq(|r|, i requires 0 <= i < |r| => r[i].page);
    var w := {1, totalPages, current - 2, current - 1, current, current + 1, current + 2};
    forall i | 0 <= i < |pages| ensures pages[i] in w {
      assert r[i] in r;
    }
    IncreasingWithin(pages, w);
  }

  /** The pagination control under the results. */
  datatype Pager = Hidden | Shown(previousDisabled: bool, links: seq<PageLink>, nextDisabled: bool)

  /**
    The control is drawn only when there is more than one page; its link row
    covers pages 1 to `totalPages`, and the previous/next arrows are greyed
    out on the first/last page.
   */
  function PagerFor(totalPages: nat, current: int): (r: Pager)
    ensures r.Shown? <==> totalPages > 1
    ensures r.Shown? ==> r.previousDisabled == (current == 1) && r.nextDisabled == (current == totalPages)
    ensures r.Shown? ==> forall e :: e in r.links ==> 1 <= e.page <= totalPages && ValidEntry(totalPages, current, e)
    ensures r.Shown? ==> forall p :: 1 <= p <= totalPages && ShowsLink(totalPages, current, p) ==> Link(p, p == current) in r.links
    ensures r.Shown? ==> forall p :: 1 <= p <= totalPages && ShowsEllipsis(totalPages, current, p) ==> Ellipsis(p) in r.links
  {
    if totalPages > 1 then Shown(current == 1, LinksFrom(totalPages, current, 1), current == totalPages) else Hidden
  }
}

=== FILE: browse_sort.dfy ===
/**
  The sort stage of the browse page: `Array.prototype.sort` with one of four
  comparators chosen by the `sortBy` facet. ECMAScript's sort is stable
  (section 22.1.3.27 of ECMA-262, 10th edition), so the model is a stable
  insertion sort driven by the same comparator.
 */
module BrowseSort {
  import opened Catalog

  datatype SortOrder = ViewsDesc | LikesDesc | DateAsc | DateDesc

  /** Reads the `sortBy` facet; every value other than the three named keys falls through to newest first. */
  function OrderOf(sortBy: string): (o: SortOrder)
    ensures o == DateDesc <==> sortBy != "views_desc" && sortBy != "likes_desc" && sortBy != "date_asc"
  {
    if sortBy == "views_desc" then ViewsDesc
    else if sortBy == "likes_desc" then LikesDesc
    else if sortBy == "date_asc" then DateAsc
    else DateDesc
  }

  /**
    The comparator passed to `.sort`: negative means `a` goes before `b`,
    i.e. `a` has more views, more likes, an earlier date or a later date.
   */
  function Compare(o: SortOrder, a: Item, b: Item): (c: int)
    ensures o == ViewsDesc ==> (c < 0 <==> a.viewCount > b.viewCount)
    ensures o == LikesDesc ==> (c < 0 <==> a.likeCount > b.likeCount)
    ensures o == DateAsc ==> (c < 0 <==> a.date < b.date)
    ensures o == DateDesc ==> (c < 0 <==> a.date > b.date)
  {
    match o
    case ViewsDesc => b.viewCount - a.viewCount
    case LikesDesc => b.likeCount - a.likeCount
    case DateAsc => a.date - b.date
    case DateDesc => b.date - a.date
  }

  /** The sort key each comparator compares, oriented so that smaller keys come first. */
  function Rank(o: SortOrder, it: Item): int {
    match o
    case ViewsDesc => -it.viewCount
    case LikesDesc => -it.likeCount
    case DateAsc => it.date
    case DateDesc => -it.date
  }

  /** Every comparator is the difference of two keys, hence a consistent total preorder. */
  lemma CompareIsRankDifference(o: SortOrder, a: Item, b: Item)
    ensures Compare(o, a, b) == Rank(o, a) - Rank(o, b)
  {
  }

  /** `s` is in non-decreasing key order. */
  ghost predicate Sorted(o: SortOrder, s: seq<Item>) {
    forall i, j :: 0 <= i < j < |s| ==> Rank(o, s[i]) <= Rank(o, s[j])
  }

  /** The items of `s` whose key is `k`, in their order in `s`. */
  function Class(o: SortOrder, s: seq<Item>, k: int): seq<Item>
    decreases |s|
  {
    if |s| == 0 then [] else (if Rank(o, s[0]) == k then [s[0]] else []) + Class(o, s[1..], k)
  }

  /** `Class` of a sequence with a head element unfolds one step. */
  lemma ClassCons(o: SortOrder, x: Item, s: seq<Item>, k: int)
    ensures Class(o, [x] + s, k) == (if Rank(o, x) == k then [x] else []) + Class(o, s, k)
  {
    assert ([x] + s)[1..] == s;
  }

  /**
    Inserts `x` into the sorted `s` in front of the first item that does not
    compare below it, i.e. before every item with an equal key.
   */
  function Insert(o: SortOrder, x: Item, s: seq<Item>): (r: seq<Item>)
    requires Sorted(o, s)
    ensures multiset(r) == multiset(s) + multiset{x}
    ensures Sorted(o, r)
    decreases |s|
  {
    if |s| == 0 then [x]
    else if Compare(o, x, s[0]) <= 0 then [x] + s
    else
      SortedTail(o, s);
      var rest := Insert(o, x, s[1..]);
      assert s == [s[0]] + s[1..];
      HeadBelow(o, s, x);
      InsertSortedStep(o, s[0], rest, multiset(s[1..]) + multiset{x});
      [s[0]] + rest
  }

  /** A suffix of a sorted sequence is sorted. */
  lemma SortedTail(o: SortOrder, s: seq<Item>)
    requires Sorted(o, s) && |s| > 0
    ensures Sorted(o, s[1..])
  {
    forall i, j | 0 <= i < j < |s| - 1 ensures Rank(o, s[1..][i]) <= Rank(o, s[1..][j]) {
      assert s[1..][i] == s[i + 1] && s[1..][j] == s[j + 1];
    }
  }

  /** The head of a sorted sequence is no greater than its tail nor than an item that compares above it. */
  lemma HeadBelow(o: SortOrder, s: seq<Item>, x: Item)
    requires Sorted(o, s) && |s| > 0
    requires Compare(o, x, s[0]) > 0
    ensures forall z :: z in multiset(s[1..]) + multiset{x} ==> Rank(o, s[0]) <= Rank(o, z)
  {
    forall z | z in multiset(s[1..]) + multiset{x} ensures Rank(o, s[0]) <= Rank(o, z) {
      if z != x {
        var k :| 0 <= k < |s[1..]| && s[1..][k] == z;
        assert z == s[k + 1];
      }
    }
  }

  /** Putting an item no greater than every item of a sorted sequence in front keeps it sorted. */
  lemma InsertSortedStep(o: SortOrder, y: Item, rest: seq<Item>, m: multiset<Item>)
    requires Sorted(o, rest)
    requires multiset(rest) == m
    requires forall z :: z in m ==> Rank(o, y) <= Rank(o, z)
    ensures Sorted(o, [y] + rest)
  {
    var r := [y] + rest;
    forall i, j | 0 <= i < j < |r| ensures Rank(o, r[i]) <= Rank(o, r[j]) {
      assert r[j] == rest[j - 1];
      if i == 0 {
        assert r[j] in multiset(rest);
      } else {
        assert r[i] == rest[i - 1];
      }
    }
  }

  /** `Insert` places `x` in front of the items that share its key and leaves every other class alone. */
  lemma {:induction false} InsertClass(o: SortOrder, x: Item, s: seq<Item>, k: int)
    requires Sorted(o, s)
    ensures Class(o, Insert(o, x, s), k) == (if Rank(o, x) == k then [x] else []) + Class(o, s, k)
    decreases |s|
  {
    if |s| == 0 {
      ClassCons(o, x, [], k);
    } else if Compare(o, x, s[0]) <= 0 {
      ClassCons(o, x, s, k);
    } else {
      SortedTail(o, s);
      var rest := Insert(o, x, s[1..]);
      assert Insert(o, x, s) == [s[0]] + rest;
      InsertClass(o, x, s[1..], k);
      ClassCons(o, s[0], rest, k);
      assert s == [s[0]] + s[1..];
      ClassCons(o, s[0], s[1..], k);
      CompareIsRankDifference(o, x, s[0]);
      SwapDisjoint(if Rank(o, s[0]) == k then [s[0]] else [], if Rank(o, x) == k then [x] else [], Class(o, s[1..], k));
    }
  }

  /** Two pieces of which at least one is empty can be swapped in front of a third. */
  lemma SwapDisjoint(head: seq<Item>, mid: seq<Item>, tail: seq<Item>)
    requires head == [] || mid == []
    ensures head + (mid + tail) == mid + (head + tail)
  {
    if head == [] {
      assert head + (mid + tail) == mid + tail == mid + (head + tail);
    } else {
      assert head + (mid + tail) == head + tail == mid + (head + tail);
    }
  }

  /**
    The stable sort of `s` under the comparator of `o`: a permutation of `s`,
    in key order, in which the items sharing any one key keep their order
    from `s`.
   */
  function SortItems(o: SortOrder, s: seq<Item>): (r: seq<Item>)
    ensures multiset(r) == multiset(s)
    ensures Sorted(o, r)
    ensures forall k :: Class(o, r, k) == Class(o, s, k)
    decreases |s|
  {
    if |s| == 0 then []
    else
      var rest := SortItems(o, s[1..]);
      assert s == [s[0]] + s[1..];
      forall k ensures Class(o, Insert(o, s[0], rest), k) == Class(o, s, k) {
        InsertClass(o, s[0], rest, k);
        ClassCons(o, s[0], s[1..], k);
      }
      Insert(o, s[0], rest)
  }

  /** Sorting does not lose or duplicate items: the output is as long as the input. */
  lemma SortKeepsLength(o: SortOrder, s: seq<Item>)
    ensures |SortItems(o, s)| == |s|
  {
    var r := SortItems(o, s);
    assert |multiset(r)| == |multiset(s)|;
  }

  /**
    In the terms of the `sortBy` facet: most viewed first for `views_desc`,
    most liked first for `likes_desc`, oldest first for `date_asc`, and
    newest first for `date_desc` or any other key.
   */
  lemma SortOrderMeaning(sortBy: string, s: seq<Item>)
    ensures var r := SortItems(OrderOf(sortBy), s);
      && (sortBy == "views_desc" ==> forall i, j :: 0 <= i < j < |r| ==> r[i].viewCount >= r[j].viewCount)
      && (sortBy == "likes_desc" ==> forall i, j :: 0 <= i < j < |r| ==> r[i].likeCount >= r[j].likeCount)
      && (sortBy == "date_asc" ==> forall i, j :: 0 <= i < j < |r| ==> r[i].date <= r[j].date)
      && (sortBy != "views_desc" && sortBy != "likes_desc" && sortBy != "date_asc" ==>
            forall i, j :: 0 <= i < j < |r| ==> r[i].date >= r[j].date)
  {
    var o := OrderOf(sortBy);
    var r := SortItems(o, s);
    forall i, j | 0 <= i < j < |r| ensures Rank(o, r[i]) <= Rank(o, r[j]) {
    }
  }

  /** An item of `s` belongs to the class of its own key. */
  lemma {:induction false} InOwnClass(o: SortOrder, s: seq<Item>, x: Item)
    requires x in s
    ensures x in Class(o, s, Rank(o, x))
    decreases |s|
  {
    if s[0] != x {
      InOwnClass(o, s[1..], x);
    }
  }

  /** The class of `k` holds only items of `s` whose key is `k`. */
  lemma {:induction false} ClassSound(o: SortOrder, s: seq<Item>, k: int, x: Item)
    requires x in Class(o, s, k)
    ensures x in s && Rank(o, x) == k
    decreases |s|
  {
    if !(Rank(o, s[0]) == k && x == s[0]) {
      ClassSound(o, s[1..], k, x);
    }
  }

  /** Two sorted sequences with the same classes start with an item of the same key. */
  lemma SameHeadKey(o: SortOrder, a: seq<Item>, b: seq<Item>)
    requires Sorted(o, a) && Sorted(o, b) && |a| > 0 && |b| > 0
    requires forall k :: Class(o, a, k) == Class(o, b, k)
    ensures Rank(o, a[0]) == Rank(o, b[0])
  {
    var ka := Rank(o, a[0]);
    var kb := Rank(o, b[0]);
    InOwnClass(o, a, a[0]);
    InOwnClass(o, b, b[0]);
    assert Class(o, a, ka) == Class(o, b, ka);
    assert Class(o, a, kb) == Class(o, b, kb);
    ClassSound(o, b, ka, a[0]);
    ClassSound(o, a, kb, b[0]);
    var i :| 0 <= i < |b| && b[i] == a[0];
    var j :| 0 <= j < |a| && a[j] == b[0];
    assert kb <= ka by { if i > 0 { assert Rank(o, b[0]) <= Rank(o, b[i]); } }
    assert ka <= kb by { if j > 0 { assert Rank(o, a[0]) <= Rank(o, a[j]); } }
  }

  /** In the class of its own key, the head of a sequence comes first. */
  lemma ClassOfHead(o: SortOrder, s: seq<Item>)
    requires |s| > 0
    ensures Class(o, s, Rank(o, s[0])) == [s[0]] + Class(o, s[1..], Rank(o, s[0]))
  {
  }

  /** Removing equal heads keeps one class equal. */
  lemma ClassOfTail(o: SortOrder, a: seq<Item>, b: seq<Item>, k: int)
    requires |a| > 0 && |b| > 0 && a[0] == b[0]
    requires Class(o, a, k) == Class(o, b, k)
    ensures Class(o, a[1..], k) == Class(o, b[1..], k)
  {
    var h := if Rank(o, a[0]) == k then [a[0]] else [];
    assert Class(o, a, k) == h + Class(o, a[1..], k);
    assert Class(o, b, k) == h + Class(o, b[1..], k);
    assert Class(o, a[1..], k) == Class(o, a, k)[|h|..];
    assert Class(o, b[1..], k) == Class(o, b, k)[|h|..];
  }

  /** Removing equal heads keeps the classes equal. */
  lemma ClassesOfTails(o: SortOrder, a: seq<Item>, b: seq<Item>)
    requires |a| > 0 && |b| > 0
    requires forall k :: Class(o, a, k) == Class(o, b, k)
    requires Rank(o, a[0]) == Rank(o, b[0])
    ensures a[0] == b[0]
    ensures forall k :: Class(o, a[1..], k) == Class(o, b[1..], k)
  {
    var k0 := Rank(o, a[0]);
    ClassOfHead(o, a);
    ClassOfHead(o, b);
    assert Class(o, a, k0) == Class(o, b, k0);
    assert Class(o, a, k0)[0] == a[0];
    forall k ensures Class(o, a[1..], k) == Class(o, b[1..], k) {
      ClassOfTail(o, a, b, k);
    }
  }

  /**
    A sorted sequence is determined by its classes: two sequences in key order
    whose items of every key appear in the same order are equal.
   */
  lemma {:induction false} SortedByClassesUnique(o: SortOrder, a: seq<Item>, b: seq<Item>)
    requires Sorted(o, a) && Sorted(o, b)
    requires forall k :: Class(o, a, k) == Class(o, b, k)
    ensures a == b
    decreases |a|
  {
    if |a| == 0 || |b| == 0 {
      if |a| > 0 {
        InOwnClass(o, a, a[0]);
      } else if |b| > 0 {
        InOwnClass(o, b, b[0]);
      }
    } else {
      SameHeadKey(o, a, b);
      ClassesOfTails(o, a, b);
      SortedTail(o, a);
      SortedTail(o, b);
      SortedByClassesUnique(o, a[1..], b[1..]);
      assert a == [a[0]] + a[1..];
      assert b == [b[0]] + b[1..];
    }
  }

  /**
    Reference characterisation of the sort stage: any sequence that is in key
    order and keeps the input order among equal keys is exactly `SortItems`.
   */
  lemma SortItemsIsTheStableSort(o: SortOrder, s: seq<Item>, r: seq<Item>)
    requires Sorted(o, r)
    requires forall k :: Class(o, r, k) == Class(o, s, k)
    ensures r == SortItems(o, s)
  {
    SortedByClassesUnique(o, r, SortItems(o, s));
  }
}

=== FILE: catalog.dfy ===
/**
  The content items the browse page lists. In the repository the catalog is a
  mock array built with random counts; here it is any finite sequence of items
  supplied by the caller.
 */
module Catalog {

  /**
    One catalog entry. `date` stands for the millisecond timestamp the sort
    comparator obtains from the item's ISO date string.
   */
  datatype Item = Item(
    id: string,
    title: string,
    imageUrl: string,
    description: string,
    contentUrl: string,
    viewCount: int,
    likeCount: int,
    commentCount: int,
    category: string,
    tags: seq<string>,
    date: int
  )

}

=== FILE: detail.dfy ===
/**
  The content detail page: the state it initialises from the route's id, the
  like toggle, posting a comment, and the shortened title in the breadcrumb.
 */
module Detail {
  import Text

  datatype Option<T> = None | Some(value: T)

  /** One comment as the page stores it. */
  datatype Comment = Comment(id: string, user: string, text: string, avatar: string)

  /** The parts of a catalog entry the page's state depends on. */
  datatype Content = Content(title: string, likes: int, comments: seq<Comment>)

  /**
    The page's state: the entry found for the route id (if any), the like
    counter and flag, the comment list and the comment being typed.
   */
  datatype DetailState = DetailState(
    content: Option<Content>,
    likes: int,
    isLiked: bool,
    comments: seq<Comment>,
    newComment: string
  )

  /** The author and avatar every comment posted from this page carries. */
  const CurrentUser := "CurrentUser"
  const CurrentAvatar := "https://placehold.co/50x50/\U{7528}\U{6237}/ffffff?text=ME"

  /**
    The state on mount for route parameter `id`: an entry is found only for a
    non-empty id that the catalog knows. Otherwise the page is in its
    not-found state with zero likes and no comments.
   */
  function Open(catalog: map<string, Content>, id: Option<string>): (d: DetailState)
    ensures d.content.Some? <==> id.Some? && id.value != "" && id.value in catalog
    ensures d.content.Some? ==>
      (d.content.value == catalog[id.value] && d.likes == catalog[id.value].likes && d.comments == catalog[id.value].comments)
    ensures d.content.None? ==> d.likes == 0 && d.comments == []
    ensures !d.isLiked && d.newComment == ""
  {
    match id
    case Some(key) =>
      if key != "" && key in catalog then
        DetailState(Some(catalog[key]), catalog[key].likes, false, catalog[key].comments, "")
      else
        DetailState(None, 0, false, [], "")
    case None =>
      DetailState(None, 0, false, [], "")
  }

  // ---------------------------------------------------------------------------
  // Likes
  // ---------------------------------------------------------------------------

  /** `handleLike`: liking adds one, unliking takes one away, and the flag flips. */
  function HandleLike(d: DetailState): (r: DetailState)
    ensures r.isLiked == !d.isLiked
    ensures !d.isLiked ==> r.likes == d.likes + 1
    ensures d.isLiked ==> r.likes == d.likes - 1
    ensures r.content == d.content && r.comments == d.comments && r.newComment == d.newComment
  {
    d.(likes := if d.isLiked then d.likes - 1 else d.likes + 1, isLiked := !d.isLiked)
  }

  /** Pressing like twice restores the counter and the flag. */
  lemma LikeTwiceRestores(d: DetailState)
    ensures HandleLike(HandleLike(d)) == d
  {
  }

  /** The counter is the entry's initial count plus one exactly while the entry is liked. */
  ghost predicate LikesConsistent(d: DetailState, initialLikes: int) {
    d.likes == initialLikes + (if d.isLiked then 1 else 0)
  }

  /** Opening the page establishes the like invariant, and `handleLike` keeps it. */
  lemma LikesInvariant(catalog: map<string, Content>, id: Option<string>, d: DetailState, initialLikes: int)
    ensures LikesConsistent(Open(catalog, id),
      if id.Some? && id.value != "" && id.value in catalog then catalog[id.value].likes else 0)
    ensures LikesConsistent(d, initialLikes) ==> LikesConsistent(HandleLike(d), initialLikes)
    ensures LikesConsistent(d, initialLikes) ==> LikesConsistent(HandleComment(d), initialLikes)
  {
  }

  // ---------------------------------------------------------------------------
  // Comments
  // ---------------------------------------------------------------------------

  /** The id the n-th comment of the list gets: `c${n}`. */
  function CommentId(n: nat): (s: string)
    ensures |s| >= 2 && s[0] == 'c'
    ensures forall i :: 1 <= i < |s| ==> Text.IsDigit(s[i])
    ensures Text.ParseNat(s[1..]) == n
    ensures |s| > 2 ==> s[1] != '0'
  {
    Text.ParseNatToString(n);
    assert ("c" + Text.NatToString(n))[1..] == Text.NatToString(n);
    "c" + Text.NatToString(n)
  }

  /** Different positions get different ids. */
  lemma CommentIdInjective(m: nat, n: nat)
    ensures CommentId(m) == CommentId(n) ==> m == n
  {
    if CommentId(m) == CommentId(n) {
      assert CommentId(m)[1..] == Text.NatToString(m);
      assert CommentId(n)[1..] == Text.NatToString(n);
      Text.NatToStringInjective(m, n);
    }
  }

  /** The comment box can be posted: its trimmed text is not empty. */
  predicate CanPost(d: DetailState) {
    Text.Trim(d.newComment) != ""
  }

  /**
    `handleCommentSubmit`: a comment whose trimmed text is empty changes
    nothing; otherwise one comment with the trimmed text and the next id is
    appended after the existing ones and the box is cleared.
   */
  function HandleComment(d: DetailState): (r: DetailState)
    ensures !CanPost(d) ==> r == d
    ensures CanPost(d) ==>
      && |r.comments| == |d.comments| + 1
      && r.comments[..|d.comments|] == d.comments
      && r.comments[|d.comments|].text == Text.Trim(d.newComment)
      && r.comments[|d.comments|].id == CommentId(|d.comments| + 1)
      && r.comments[|d.comments|].user == CurrentUser
      && r.newComment == ""
    ensures r.content == d.content && r.likes == d.likes && r.isLiked == d.isLiked
  {
    var text := Text.Trim(d.newComment);
    if text == "" then d
    else
      var added := Comment(CommentId(|d.comments| + 1), CurrentUser, text, CurrentAvatar);
      assert (d.comments + [added])[..|d.comments|] == d.comments;
      d.(comments := d.comments + [added], newComment := "")
  }

  /** Typing into the comment box. */
  function TypeComment(d: DetailState, text: string): (r: DetailState)
    ensures r.newComment == text
    ensures r.(newComment := d.newComment) == d
  {
    d.(newComment := text)
  }

  /** The comment list is numbered c1, c2, ... in order. */
  ghost predicate WellNumbered(comments: seq<Comment>) {
    forall i :: 0 <= i < |comments| ==> comments[i].id == CommentId(i + 1)
  }

  /** A well-numbered list stays well-numbered, so its ids stay pairwise distinct. */
  lemma PostingKeepsNumbering(d: DetailState)
    requires WellNumbered(d.comments)
    ensures WellNumbered(HandleComment(d).comments)
    ensures forall i, j :: 0 <= i < j < |HandleComment(d).comments| ==>
      HandleComment(d).comments[i].id != HandleComment(d).comments[j].id
  {
    var cs := HandleComment(d).comments;
    if CanPost(d) {
      AppendKeepsNumbering(d.comments, cs);
    }
    NumberedIdsDistinct(cs);
  }

  /** One comment with the next id after a well-numbered prefix keeps the list well-numbered. */
  lemma AppendKeepsNumbering(before: seq<Comment>, after: seq<Comment>)
    requires WellNumbered(before)
    requires |after| == |before| + 1 && after[..|before|] == before
    requires after[|before|].id == CommentId(|before| + 1)
    ensures WellNumbered(after)
  {
    forall i | 0 <= i < |after| ensures after[i].id == CommentId(i + 1) {
      if i < |before| {
        assert after[i] == after[..|before|][i];
      }
    }
  }

  /** A well-numbered list has pairwise distinct ids. */
  lemma NumberedIdsDistinct(cs: seq<Comment>)
    requires WellNumbered(cs)
    ensures forall i, j :: 0 <= i < j < |cs| ==> cs[i].id != cs[j].id
  {
    forall i, j | 0 <= i < j < |cs| ensures cs[i].id != cs[j].id {
      CommentIdInjective(i + 1, j + 1);
    }
  }

  /** Posting a text that has no surrounding whitespace appends exactly that text with the next id. */
  lemma PostAppends(d: DetailState, text: string)
    requires text != [] && !Text.IsWhitespace(text[0]) && !Text.IsWhitespace(text[|text| - 1])
    ensures HandleComment(TypeComment(d, text)).comments
      == d.comments + [Comment(CommentId(|d.comments| + 1), CurrentUser, text, CurrentAvatar)]
  {
    var typed := TypeComment(d, text);
    Text.TrimOfClean(text);
    assert CanPost(typed);
    assert typed.comments == d.comments;
  }

  /**
    The id is derived from the list's length, not from the ids present, so a
    list that does not start numbered c1, c2, ... can receive a duplicate: an
    entry whose only comment is `c3` gets `c2` and then a second `c3` after
    two posts.
   */
  lemma DuplicateIdFromUnnumberedList(d: DetailState, first: Comment, a: string, b: string)
    requires d.comments == [first] && first.id == "c3"
    requires a != [] && !Text.IsWhitespace(a[0]) && !Text.IsWhitespace(a[|a| - 1])
    requires b != [] && !Text.IsWhitespace(b[0]) && !Text.IsWhitespace(b[|b| - 1])
    ensures var cs := HandleComment(TypeComment(HandleComment(TypeComment(d, a)), b)).comments;
      |cs| == 3 && cs[2].id == cs[0].id
  {
    var d1 := HandleComment(TypeComment(d, a));
    PostAppends(d, a);
    assert |d1.comments| == 2 && d1.comments[0].id == "c3";
    ThirdPostRepeatsId(d1, b);
  }

  /** A third comment gets `c3`, whatever ids the first two carry. */
  lemma ThirdPostRepeatsId(d: DetailState, b: string)
    requires |d.comments| == 2
    requires b != [] && !Text.IsWhitespace(b[0]) && !Text.IsWhitespace(b[|b| - 1])
    ensures var cs := HandleComment(TypeComment(d, b)).comments;
      |cs| == 3 && cs[0] == d.comments[0] && cs[2].id == "c3"
  {
    PostAppends(d, b);
    ThirdId();
  }

  lemma ThirdId()
    ensures CommentId(3) == "c3"
  {
    assert Text.NatToString(3) == "3";
  }

  // ---------------------------------------------------------------------------
  // Breadcrumb
  // ---------------------------------------------------------------------------

  /** The longest title the breadcrumb shows unshortened. */
  const BreadcrumbWidth := 30

  /**
    The breadcrumb's title: at most 30 characters; a longer title is cut to
    its first 27 characters followed by "...".
   */
  function BreadcrumbTitle(title: string): (r: string)
    ensures |r| <= BreadcrumbWidth
    ensures |title| <= BreadcrumbWidth ==> r == title
    ensures |title| > BreadcrumbWidth ==> |r| == BreadcrumbWidth && r[..27] == title[..27] && r[27..] == "..."
  {
    if |title| > BreadcrumbWidth then title[..27] + "..." else title
  }

  /** A shortened title is left alone when shortened again. */
  lemma BreadcrumbIdempotent(title: string)
    ensures BreadcrumbTitle(BreadcrumbTitle(title)) == BreadcrumbTitle(title)
  {
  }
}

=== FILE: seqs.dfy ===
/**
  Generic sequence helpers shared by the browse pipeline and the facet
  toggles: an order-preserving filter (the model of `Array.prototype.filter`)
  and the subsequence relation it establishes.
 */
module Seqs {

  /** `a` can be obtained from `b` by deleting elements, keeping the order. */
  ghost predicate IsSubsequence<T>(a: seq<T>, b: seq<T>)
    decreases |b|
  {
    if |a| == 0 then true
    else if |b| == 0 then false
    else (a[0] == b[0] && IsSubsequence(a[1..], b[1..])) || IsSubsequence(a, b[1..])
  }

  /** Keeps, in order, the elements of `s` that satisfy `p`. */
  function Filter<T(!new)>(s: seq<T>, p: T -> bool): (r: seq<T>)
    ensures |r| <= |s|
    ensures forall x :: x in r ==> x in s && p(x)
    ensures forall x :: x in s && p(x) ==> x in r
    ensures forall x :: multiset(r)[x] == if p(x) then multiset(s)[x] else 0
    ensures IsSubsequence(r, s)
  {
    if |s| == 0 then []
    else
      var rest := Filter(s[1..], p);
      assert s == [s[0]] + s[1..];
      if p(s[0]) then
        assert ([s[0]] + rest)[1..] == rest;
        [s[0]] + rest
      else
        rest
  }

  /** Filtering a sequence with a head element unfolds one step. */
  lemma FilterCons<T(!new)>(x: T, s: seq<T>, p: T -> bool)
    ensures Filter([x] + s, p) == (if p(x) then [x] else []) + Filter(s, p)
  {
    assert ([x] + s)[1..] == s;
  }

  /** Two successive filters are one filter with the conjunction of the predicates. */
  lemma {:induction false} FilterFusion<T(!new)>(s: seq<T>, p: T -> bool, q: T -> bool, pq: T -> bool)
    requires forall x :: pq(x) == (p(x) && q(x))
    ensures Filter(Filter(s, p), q) == Filter(s, pq)
    decreases |s|
  {
    if |s| != 0 {
      FilterFusion(s[1..], p, q, pq);
      if p(s[0]) {
        FilterCons(s[0], Filter(s[1..], p), q);
      }
    }
  }

  /** The filter only looks at the predicate's values on the elements of `s`. */
  lemma {:induction false} FilterCongruence<T(!new)>(s: seq<T>, p: T -> bool, q: T -> bool)
    requires forall x :: x in s ==> p(x) == q(x)
    ensures Filter(s, p) == Filter(s, q)
    decreases |s|
  {
    if |s| != 0 {
      FilterCongruence(s[1..], p, q);
    }
  }

  /** Nothing is dropped when every element satisfies the predicate. */
  lemma {:induction false} FilterAll<T(!new)>(s: seq<T>, p: T -> bool)
    requires forall x :: x in s ==> p(x)
    ensures Filter(s, p) == s
    decreases |s|
  {
    if |s| != 0 {
      FilterAll(s[1..], p);
      assert s == [s[0]] + s[1..];
    }
  }
}

=== FILE: text.dfy ===
/**
  The string operations the pages rely on: case folding for the title search,
  substring search (`String.prototype.includes`), whitespace trimming
  (`String.prototype.trim`) and the decimal rendering of a number inside a
  template literal.
 */
module Text {

  // ---------------------------------------------------------------------------
  // Case folding
  // ---------------------------------------------------------------------------

  predicate IsUpper(c: char) {
    'A' <= c <= 'Z'
  }

  /** Lower-cases one character; only the ASCII letters A-Z are folded. */
  function LowerChar(c: char): char {
    if IsUpper(c) then (c as int + 32) as char else c
  }

  /** Lower-cases every character of `s`, keeping its length and positions. */
  function ToLower(s: string): (r: string)
    ensures |r| == |s|
    ensures forall i :: 0 <= i < |s| ==> r[i] == LowerChar(s[i])
    ensures forall i :: 0 <= i < |r| ==> !IsUpper(r[i])
  {
    seq(|s|, i requires 0 <= i < |s| => LowerChar(s[i]))
  }

  /** Folding an already folded string changes nothing. */
  lemma ToLowerIdempotent(s: string)
    ensures ToLower(ToLower(s)) == ToLower(s)
  {
    var once := ToLower(s);
    var twice := ToLower(once);
    assert forall i :: 0 <= i < |once| ==> twice[i] == once[i];
  }

  // ---------------------------------------------------------------------------
  // Substring search
  // ---------------------------------------------------------------------------

  /** `needle` occurs in `hay` starting at position `i`. */
  ghost predicate OccursAt(hay: string, needle: string, i: int) {
    0 <= i && i + |needle| <= |hay| && hay[i..i + |needle|] == needle
  }

  /** Substring test, the model of `hay.includes(needle)`. */
  function Contains(hay: string, needle: string): (b: bool)
    ensures b <==> exists i :: OccursAt(hay, needle, i)
    decreases |hay|
  {
    if |needle| > |hay| then
      assert forall i :: !OccursAt(hay, needle, i);
      false
    else if hay[..|needle|] == needle then
      assert OccursAt(hay, needle, 0);
      true
    else
      var rest := Contains(hay[1..], needle);
      assert forall i :: OccursAt(hay[1..], needle, i) <==> OccursAt(hay, needle, i + 1) by {
        forall i ensures OccursAt(hay[1..], needle, i) <==> OccursAt(hay, needle, i + 1) {
          if 0 <= i && i + |needle| <= |hay[1..]| {
            assert hay[1..][i..i + |needle|] == hay[i + 1..i + 1 + |needle|];
          }
        }
      }
      assert !OccursAt(hay, needle, 0);
      assert rest ==> exists i :: OccursAt(hay, needle, i) by {
        if rest {
          var k :| OccursAt(hay[1..], needle, k);
          assert OccursAt(hay, needle, k + 1);
        }
      }
      assert (exists i :: OccursAt(hay, needle, i)) ==> rest by {
        if exists i :: OccursAt(hay, needle, i) {
          var k :| OccursAt(hay, needle, k);
          assert k != 0;
          assert OccursAt(hay[1..], needle, k - 1);
        }
      }
      rest
  }

  /** The empty string occurs in every string. */
  lemma ContainsEmpty(hay: string)
    ensures Contains(hay, "")
  {
    assert OccursAt(hay, "", 0);
  }

  /** Every string contains itself. */
  lemma ContainsSelf(s: string)
    ensures Contains(s, s)
  {
    assert OccursAt(s, s, 0);
  }

  // ---------------------------------------------------------------------------
  // Trimming
  // ---------------------------------------------------------------------------

  /**
    The code points `String.prototype.trim` removes: the WhiteSpace and
    LineTerminator productions of ECMA-262 (sections 11.2 and 11.3 of the
    10th edition), i.e. TAB, VT, FF, ZWNBSP, the Zs space separators, LF, CR,
    LS and PS.
   */
  predicate IsWhitespace(c: char) {
    || c == '\t' || c == '\n' || c == '\U{000B}' || c == '\U{000C}' || c == '\r'
    || c == ' ' || c == '\U{00A0}' || c == '\U{1680}'
    || ('\U{2000}' <= c <= '\U{200A}')
    || c == '\U{2028}' || c == '\U{2029}' || c == '\U{202F}' || c == '\U{205F}'
    || c == '\U{3000}' || c == '\U{FEFF}'
  }

  ghost predicate AllWhitespace(s: string) {
    forall i :: 0 <= i < |s| ==> IsWhitespace(s[i])
  }

  /** Drops the leading whitespace of `s`. */
  function TrimStart(s: string): (r: string)
    ensures |r| <= |s| && r == s[|s| - |r|..]
    ensures AllWhitespace(s[..|s| - |r|])
    ensures |r| > 0 ==> !IsWhitespace(r[0])
    decreases |s|
  {
    if |s| > 0 && IsWhitespace(s[0]) then
      var r := TrimStart(s[1..]);
      assert s[..|s| - |r|] == [s[0]] + s[1..][..|s[1..]| - |r|];
      r
    else
      s
  }

  /** Drops the trailing whitespace of `s`. */
  function TrimEnd(s: string): (r: string)
    ensures |r| <= |s| && r == s[..|r|]
    ensures AllWhitespace(s[|r|..])
    ensures |r| > 0 ==> !IsWhitespace(r[|r| - 1])
    decreases |s|
  {
    if |s| > 0 && IsWhitespace(s[|s| - 1]) then
      var r := TrimEnd(s[..|s| - 1]);
      assert s[|r|..] == s[..|s| - 1][|r|..] + [s[|s| - 1]];
      r
    else
      s
  }

  /**
    Removes leading and trailing whitespace: the result is an infix of `s`,
    everything cut away is whitespace, and the result neither starts nor ends
    with whitespace.
   */
  function Trim(s: string): (r: string)
    ensures exists i, j :: 0 <= i <= j <= |s| && r == s[i..j] && AllWhitespace(s[..i]) && AllWhitespace(s[j..])
    ensures |r| > 0 ==> !IsWhitespace(r[0]) && !IsWhitespace(r[|r| - 1])
    ensures r == [] <==> AllWhitespace(s)
  {
    var t := TrimStart(s);
    var r := TrimEnd(t);
    CutBothEnds(s, t, r);
    r
  }

  /**
    Cutting a whitespace prefix and then a whitespace suffix leaves an infix
    between two whitespace runs, empty exactly when everything was whitespace.
   */
  lemma CutBothEnds(s: string, t: string, r: string)
    requires |t| <= |s| && t == s[|s| - |t|..] && AllWhitespace(s[..|s| - |t|])
    requires |r| <= |t| && r == t[..|r|] && AllWhitespace(t[|r|..])
    requires |r| > 0 ==> !IsWhitespace(r[0])
    ensures exists i, j :: 0 <= i <= j <= |s| && r == s[i..j] && AllWhitespace(s[..i]) && AllWhitespace(s[j..])
    ensures r == [] <==> AllWhitespace(s)
  {
    var i := |s| - |t|;
    var j := i + |r|;
    assert r == s[i..j];
    assert s[j..] == t[|r|..];
    if r == [] {
      WhitespaceConcat(s[..i], t);
      assert s[..i] + t == s;
    } else {
      assert s[i] == r[0];
    }
  }

  lemma WhitespaceConcat(a: string, b: string)
    requires AllWhitespace(a) && AllWhitespace(b)
    ensures AllWhitespace(a + b)
  {
    forall k | 0 <= k < |a + b| ensures IsWhitespace((a + b)[k]) {
      if k >= |a| { assert (a + b)[k] == b[k - |a|]; }
    }
  }

  /** Leading whitespace in front of a string that starts with a non-whitespace character is exactly what `TrimStart` removes. */
  lemma {:induction false} TrimStartOfPadded(lead: string, rest: string)
    requires AllWhitespace(lead)
    requires |rest| > 0 ==> !IsWhitespace(rest[0])
    ensures TrimStart(lead + rest) == rest
    decreases |lead|
  {
    if |lead| > 0 {
      assert (lead + rest)[1..] == lead[1..] + rest;
      TrimStartOfPadded(lead[1..], rest);
    } else {
      assert lead + rest == rest;
    }
  }

  /** Trailing whitespace after a string that ends with a non-whitespace character is exactly what `TrimEnd` removes. */
  lemma {:induction false} TrimEndOfPadded(rest: string, trail: string)
    requires AllWhitespace(trail)
    requires |rest| > 0 ==> !IsWhitespace(rest[|rest| - 1])
    ensures TrimEnd(rest + trail) == rest
    decreases |trail|
  {
    if |trail| > 0 {
      assert (rest + trail)[..|rest + trail| - 1] == rest + trail[..|trail| - 1];
      TrimEndOfPadded(rest, trail[..|trail| - 1]);
    } else {
      assert rest + trail == rest;
    }
  }

  /**
    Reference characterisation of `Trim`: whatever whitespace surrounds a
    string that neither starts nor ends with whitespace is removed, and
    nothing else is.
   */
  lemma TrimOfPadded(lead: string, body: string, trail: string)
    requires AllWhitespace(lead) && AllWhitespace(trail)
    requires |body| > 0 ==> !IsWhitespace(body[0]) && !IsWhitespace(body[|body| - 1])
    ensures Trim(lead + body + trail) == body
  {
    var s := lead + body + trail;
    if |body| == 0 {
      assert s == lead + trail;
      assert AllWhitespace(s) by {
        forall k | 0 <= k < |s| ensures IsWhitespace(s[k]) {
          if k < |lead| { assert s[k] == lead[k]; } else { assert s[k] == trail[k - |lead|]; }
        }
      }
    } else {
      assert s == lead + (body + trail);
      TrimStartOfPadded(lead, body + trail);
      TrimEndOfPadded(body, trail);
    }
  }

  /** A string that neither starts nor ends with whitespace is its own trim. */
  lemma TrimOfClean(s: string)
    requires |s| > 0 ==> !IsWhitespace(s[0]) && !IsWhitespace(s[|s| - 1])
    ensures Trim(s) == s
  {
    assert [] + s + [] == s;
    TrimOfPadded([], s, []);
  }

  /** Trimming twice is trimming once. */
  lemma TrimIdempotent(s: string)
    ensures Trim(Trim(s)) == Trim(s)
  {
    TrimOfClean(Trim(s));
  }

  // ---------------------------------------------------------------------------
  // Decimal numerals
  // ---------------------------------------------------------------------------

  predicate IsDigit(c: char) {
    '0' <= c <= '9'
  }

  function DigitChar(d: nat): (c: char)
    requires d < 10
    ensures IsDigit(c)
  {
    ('0' as int + d) as char
  }

  function DigitValue(c: char): (d: nat)
    requires IsDigit(c)
    ensures d < 10
  {
    c as int - '0' as int
  }

  /** The decimal numeral of `n`, as `${n}` renders a non-negative integer. */
  function NatToString(n: nat): (s: string)
    ensures |s| >= 1
    ensures forall i :: 0 <= i < |s| ==> IsDigit(s[i])
    ensures |s| > 1 ==> s[0] != '0'
    ensures n < 10 <==> |s| == 1
    decreases n
  {
    if n < 10 then [DigitChar(n)] else NatToString(n / 10) + [DigitChar(n % 10)]
  }

  /** The value of a decimal numeral (the inverse of `NatToString`). */
  function ParseNat(s: string): nat
    requires forall i :: 0 <= i < |s| ==> IsDigit(s[i])
    decreases |s|
  {
    if |s| == 0 then 0 else ParseNat(s[..|s| - 1]) * 10 + DigitValue(s[|s| - 1])
  }

  /** Reading back the numeral of `n` gives `n`. */
  lemma {:induction false} ParseNatToString(n: nat)
    ensures ParseNat(NatToString(n)) == n
    decreases n
  {
    var s := NatToString(n);
    if n >= 10 {
      ParseNatToString(n / 10);
      assert s[..|s| - 1] == NatToString(n / 10);
    }
  }

  /** Distinct numbers have distinct numerals. */
  lemma NatToStringInjective(a: nat, b: nat)
    ensures NatToString(a) == NatToString(b) ==> a == b
  {
    ParseNatToString(a);
    ParseNatToString(b);
  }
}

=== FILE: wizard.dfy ===
/**
  The three-step content submission wizard: a step counter gated by per-step
  field validation, a submit that moves to a success step, and a reset back
  to the first step. Whether a string is a well-formed URL is decided by the
  validation library and enters the model as the parameter `isUrl`.
 */
module Wizard {

  /** The form's fields; an untouched field is the empty string. */
  datatype Form = Form(
    title: string,
    contentType: string,
    url: string,
    description: string,
    category: string,
    tags: string
  )

  /** The values of the content-type select. */
  const ContentTypes: seq<string> := ["article", "video", "image", "link"]

  /** The step the wizard opens on. */
  const InitialStep := 1

  /** The success step shown after a submission went through. */
  const SuccessStep := 4

  /** Step one schema: a title of at least five characters and a known content type. */
  predicate Step1Valid(f: Form) {
    |f.title| >= 5 && f.contentType in ContentTypes
  }

  /** Step two schema: an empty or well-formed URL and a description of at least twenty characters. */
  predicate Step2Valid(f: Form, isUrl: string -> bool) {
    (f.url == "" || isUrl(f.url)) && |f.description| >= 20
  }

  /** Step three schema: a category is chosen; tags are optional. */
  predicate Step3Valid(f: Form) {
    |f.category| >= 1
  }

  /** The merged schema of the whole submission. */
  predicate SubmissionValid(f: Form, isUrl: string -> bool) {
    Step1Valid(f) && Step2Valid(f, isUrl) && Step3Valid(f)
  }

  /**
    The schema the form resolver validates against on each step: step one's
    fields on step one, steps one and two on step two, the whole submission
    otherwise. Every one of them includes the step one schema.
   */
  function ResolverValid(step: int, f: Form, isUrl: string -> bool): (ok: bool)
    ensures ok ==> |f.title| >= 5 && f.contentType in ContentTypes
    ensures step == 1 ==> (ok <==> |f.title| >= 5 && f.contentType in ContentTypes)
    ensures step == 2 ==> (ok <==> |f.title| >= 5 && f.contentType in ContentTypes
                                   && (f.url == "" || isUrl(f.url)) && |f.description| >= 20)
    ensures step != 1 && step != 2 ==> (ok <==> SubmissionValid(f, isUrl))
  {
    if step == 1 then Step1Valid(f)
    else if step == 2 then Step1Valid(f) && Step2Valid(f, isUrl)
    else SubmissionValid(f, isUrl)
  }

  /**
    What `trigger` answers in `handleNextStep`: on steps one and two only that
    step's fields are checked; on any other step every field is checked
    against the resolver's schema.
   */
  function NextAllowed(step: int, f: Form, isUrl: string -> bool): (ok: bool)
    ensures step == 1 ==> (ok <==> |f.title| >= 5 && f.contentType in ContentTypes)
    ensures step == 2 ==> (ok <==> (f.url == "" || isUrl(f.url)) && |f.description| >= 20)
    ensures step != 1 && step != 2 ==> (ok <==> SubmissionValid(f, isUrl))
  {
    if step == 1 then Step1Valid(f)
    else if step == 2 then Step2Valid(f, isUrl)
    else ResolverValid(step, f, isUrl)
  }

  /** `handleNextStep`: one step forward when the step's fields validate, otherwise no move. */
  function HandleNext(step: int, f: Form, isUrl: string -> bool): (r: int)
    ensures r == step || r == step + 1
    ensures r == step + 1 <==> NextAllowed(step, f, isUrl)
  {
    if NextAllowed(step, f, isUrl) then step + 1 else step
  }

  /** `handlePrevStep`: one step back, unconditionally (the button is only drawn past step one). */
  function HandlePrev(step: int): (r: int)
    ensures r + 1 == step
  {
    step - 1
  }

  /**
    The submit button: the form resolver validates the step's schema (the
    full schema on step three); on success the caller's `onSubmit` runs, and
    `accepted` says whether it completed without throwing. Only then does the
    wizard move to the success step.
   */
  function HandleSubmit(step: int, f: Form, isUrl: string -> bool, accepted: bool): (r: int)
    ensures r == SuccessStep <==> (ResolverValid(step, f, isUrl) && accepted) || step == SuccessStep
    ensures r != SuccessStep ==> r == step
  {
    if ResolverValid(step, f, isUrl) && accepted then SuccessStep else step
  }

  /** Which buttons the current step draws. */
  datatype Buttons = Buttons(previous: bool, next: bool, submit: bool, submitAnother: bool)

  function ButtonsFor(step: int): (b: Buttons)
    ensures b.submitAnother <==> step == SuccessStep
    ensures b.previous <==> step != SuccessStep && step > 1
    ensures b.next <==> step != SuccessStep && step < 3
    ensures b.submit <==> step == 3
  {
    if step == SuccessStep then Buttons(false, false, false, true)
    else Buttons(step > 1, step < 3, step == 3, false)
  }

  /** The wizard's state. */
  datatype WizardState = WizardState(step: int, form: Form)

  const Initial := WizardState(InitialStep, Form("", "", "", "", "", ""))

  /**
    User actions: editing fields, or pressing one of the buttons. `Submit`
    is the form's submit event, raised by the Submit button on step three or
    by pressing Enter in the single text or URL input of steps one and two
    (implicit submission of a form without a submit button).
   */
  datatype Event = Edit(f: Form) | Next | Prev | Submit(accepted: bool) | SubmitAnother

  /**
    Whether the action is available on the current screen: the buttons the
    step draws, the form's submit event on every form screen, and editing on
    every form screen.
   */
  function Offered(step: int, e: Event): (b: bool)
    ensures e.Edit? || e.Submit? ==> (b <==> step != SuccessStep)
    ensures e.Next? ==> (b <==> step != SuccessStep && step < 3)
    ensures e.Prev? ==> (b <==> step != SuccessStep && step > 1)
    ensures e.SubmitAnother? ==> (b <==> step == SuccessStep)
  {
    var buttons := ButtonsFor(step);
    match e
    case Edit(_) => step != SuccessStep
    case Next => buttons.next
    case Prev => buttons.previous
    case Submit(_) => step != SuccessStep
    case SubmitAnother => buttons.submitAnother
  }

  /**
    One user action; an action the screen does not offer changes nothing.
    Only an edit changes the fields ("Submit Another" keeps them); the step
    moves forward only through a validated Next or a validated, accepted
    submit.
   */
  function Press(st: WizardState, e: Event, isUrl: string -> bool): (r: WizardState)
    ensures !Offered(st.step, e) ==> r == st
    ensures r.form != st.form ==> e.Edit? && r.form == e.f
    ensures r.step != st.step ==> Offered(st.step, e) && !e.Edit?
    ensures e.Next? && Offered(st.step, e) ==> (r.step == st.step + 1 <==> NextAllowed(st.step, st.form, isUrl))
    ensures e.Prev? && Offered(st.step, e) ==> r == st.(step := st.step - 1)
    ensures e.Edit? && Offered(st.step, e) ==> r == st.(form := e.f)
    ensures e.Submit? && Offered(st.step, e) ==>
      (r.step == SuccessStep <==> e.accepted && ResolverValid(st.step, st.form, isUrl))
    ensures e.SubmitAnother? && Offered(st.step, e) ==> r == st.(step := InitialStep)
    ensures r.step == SuccessStep && st.step < SuccessStep ==>
      e.Submit? && e.accepted && ResolverValid(st.step, st.form, isUrl)
  {
    if !Offered(st.step, e) then st
    else
      match e
      case Edit(f) => st.(form := f)
      case Next => st.(step := HandleNext(st.step, st.form, isUrl))
      case Prev => st.(step := HandlePrev(st.step))
      case Submit(accepted) => st.(step := HandleSubmit(st.step, st.form, isUrl, accepted))
      case SubmitAnother => st.(step := InitialStep)
  }

  /** Every offered action keeps the step within 1..4. */
  lemma PressKeepsStepInRange(st: WizardState, e: Event, isUrl: string -> bool)
    requires 1 <= st.step <= 4
    ensures 1 <= Press(st, e, isUrl).step <= 4
  {
  }

  /** The wizard state after a sequence of actions from the opening state; its step is always 1..4. */
  function Run(events: seq<Event>, isUrl: string -> bool): (st: WizardState)
    ensures 1 <= st.step <= 4
    decreases |events|
  {
    if |events| == 0 then Initial
    else
      var before := Run(events[..|events| - 1], isUrl);
      PressKeepsStepInRange(before, events[|events| - 1], isUrl);
      Press(before, events[|events| - 1], isUrl)
  }

  /**
    The success step is entered only by an accepted submit whose current step
    passes the resolver's schema for that step; from step three that is the
    merged schema of all three steps.
   */
  lemma SuccessOnlyAfterValidSubmit(st: WizardState, e: Event, isUrl: string -> bool)
    requires 1 <= st.step <= 3
    requires Press(st, e, isUrl).step == SuccessStep
    ensures e.Submit? && e.accepted && ResolverValid(st.step, st.form, isUrl)
    ensures st.step == 3 ==> SubmissionValid(st.form, isUrl)
  {
  }

  /**
    Pressing Enter in the title field of step one submits the form with only
    the step one schema checked: a form with a valid title and content type
    but no description and no category reaches the success step.
   */
  lemma EarlySubmitSkipsLaterSteps(isUrl: string -> bool)
    ensures var st := WizardState(1, Form("Hello", "article", "", "", "", ""));
      Press(st, Submit(true), isUrl).step == SuccessStep && !SubmissionValid(st.form, isUrl)
  {
    var f := Form("Hello", "article", "", "", "", "");
    assert f.contentType == ContentTypes[0];
    assert Step1Valid(f);
    assert !Step3Valid(f);
  }

  /** Each forward move had that step's fields validated first. */
  lemma ForwardMovesAreValidated(st: WizardState, e: Event, isUrl: string -> bool)
    requires 1 <= st.step <= 3
    ensures Press(st, e, isUrl).step == 2 && st.step == 1 ==> Step1Valid(st.form)
    ensures Press(st, e, isUrl).step == 3 && st.step == 2 ==> Step2Valid(st.form, isUrl)
  {
  }

  /** A failed or rejected submission leaves the wizard exactly where it was. */
  lemma FailedSubmitStays(st: WizardState, isUrl: string -> bool, accepted: bool)
    requires 1 <= st.step <= 3
    requires !accepted || !ResolverValid(st.step, st.form, isUrl)
    ensures Press(st, Submit(accepted), isUrl) == st
  {
  }

  /** "Submit Another" returns from the success step to step one with the field values kept. */
  lemma SubmitAnotherRestarts(st: WizardState, isUrl: string -> bool)
    requires st.step == SuccessStep
    ensures Press(st, SubmitAnother, isUrl) == WizardState(InitialStep, st.form)
  {
  }
}
